=== FILE: README.md ===
# Lead selection and greedy routing, in Dafny

This project models the lead-selection and routing core of a React Native
prospecting app. The core is the main screen (`screens/MainScreen.js`) and
its two selection dialogs (`components/ModalFiltroLeads.js` and
`components/ModalLeads.js`).

- The screen lists the sample prospect records ("leads") by distance from
  the device location, optionally within a radius in km.
- The user builds a selection of leads from three places: the route dialog,
  the filter dialog and the list dialog. Each place toggles a lead by its
  `id`.
- The screen turns a selection of at least two entries into a
  nearest-neighbour visiting order ("rota"). It draws that order as a
  polyline and hands a directions request to the maps app.
- The screen also builds a WhatsApp link from a lead's phone number and
  colours map markers by status.

Modules, leaf first:

| file | module | what it holds |
|---|---|---|
| `leads.dfy` | `Leads` | Lead and Coord records, the distance as a parameter, id membership (`find`/`some`), removal by id (`filter`), the five sample records |
| `selection.dfy` | `Selection` | the toggle rule all three views share |
| `stable_sort.dfy` | `StableSort` | the stable sort that `Array.prototype.sort` must be (ECMA-262 10th edition, section 22.1.3.27) |
| `listing.dfy` | `Listing` | the two distance listings: every lead, or the leads within a radius |
| `nearest_neighbour.dfy` | `NearestNeighbour` | `otimizarRota`: the `reduce` pick, the loop, and its greedy characterisation |
| `contact.dfy` | `Contact` | the WhatsApp link and the marker colour |
| `main_screen.dfy` | `MainScreen` | the screen's state and its handlers |
| `filter_dialog.dfy` | `FilterDialog` | the filter dialog: its local copy, chips and buttons |
| `leads_dialog.dfy` | `LeadsDialog` | the list dialog: its local copy and buttons |
| `app.dfy` | `App` | the screen and both dialogs as one state machine driven by user events |

How the model represents the app:

- The distance between two coordinates (`calcularDistancia`, the haversine
  formula) is never evaluated. Every operation takes it as a parameter
  `dist: (Coord, Coord) -> real`, so each property holds for every distance
  function.
- Handlers are pure functions from the state before to the state after. All
  `set…` calls of one handler take effect together, as React applies them.
- The dialogs' callbacks are returned as an `Output` value, not called.

## Behaviour worth knowing

- **Tie-break of the nearest pick.** The pick is
  `restantes.reduce((a, b) => da < db ? a : b)` with no initial value. A
  later entry replaces the accumulator unless the accumulator is strictly
  nearer, so among equally near entries the LAST one wins
  (`NearestNeighbour.ReduceNearestIsLastNearest`).
- **Route guard.** `handleCriarRotaMultipla` checks
  `leadsSelecionados.length < 2`, which counts entries, not distinct ids. It
  has no error value: it shows an alert and returns.
- **Route buttons.** "Criar Rota (n paradas)" and "Cancelar" are rendered
  only while the selection has more than one entry
  (`MainScreen.RouteButtonsShown`). Pressing either button is an event only
  while they are shown (`App.ScreenStep`). Neither alert of
  `handleCriarRotaMultipla` can be reached through the screen:
  - the entry-count alert needs fewer than two entries, which hides the
    button;
  - the missing-location alert needs a selection made before the location
    arrives. But the lead lists stay empty until then, because both listing
    handlers return early without a location. The markers are drawn only
    inside the map, which needs the location. And the location, once set,
    is never cleared.
- **Radius 0.** A lead stays in the radius listing when
  `distancia <= raio`, so radius 0 keeps the leads at distance 0. Only a
  negative radius keeps nothing, and only when distances are non-negative
  (`Listing.NegativeRadiusKeepsNothing`).
- **Stale ids are kept.** A new radius changes the list but never prunes the
  selection (`MainScreen.HandleSelectRaio`).
- **One selection per view.** Each dialog keeps its own copy of the
  selection. The copy is seeded once, when the screen mounts and the
  selection is still empty, and every row tap in a dialog overwrites the
  shared selection with that copy. So:
  - a selection cancelled on the screen comes back at the next dialog tap
    (`App.CancelledLeadsComeBack`);
  - the two dialogs overwrite each other (`App.DialogsOverwriteEachOther`);
  - a route-dialog choice is lost to the next dialog tap
    (`App.RouteDialogChoiceIsLostToDialogTap`).
- **`onFilterChange` reports one change late.** It receives the chip values
  from before the change, because state setters take effect only on the next
  render (`FilterDialog.FilterChangeReportsOneBehind`). The screen's
  callback only logs them.
- **"Criar Rota" in the detail dialog** makes the selection exactly that one
  lead. One entry is too few for the route buttons, so no route can be
  created until a second lead is selected
  (`App.SingleRouteHidesRouteButtons`).
- **`handleLeadClick` is never called.** It lists every lead by distance and
  opens the filter dialog, but the "Filtrar" button opens the filter dialog
  directly. So the dialogs only ever list what `handleSelectRaio` produced.
  The model keeps `handleLeadClick` as an event of its own.

## Model

| member | source | states |
|---|---|---|
| Leads.HasId | screens/MainScreen.js:245 | `find` by id succeeds exactly when some entry carries the id |
| Leads.IdSet | screens/MainScreen.js:425-427 | the ids of a selection are exactly those for which the `find` by id succeeds |
| Leads.RemoveId | screens/MainScreen.js:247 | `filter` by id keeps exactly the entries with a different id, and gets shorter exactly when the id was present |
| Leads.RemoveIdIds | screens/MainScreen.js:247 | removal by id takes exactly that id out of the id set |
| Leads.RemoveIdDistinct | screens/MainScreen.js:247 | removal by id keeps ids pairwise distinct |
| Leads.RemoveIdMultiset | screens/MainScreen.js:76 | with distinct ids, removing the id of one entry removes exactly that entry |
| Leads.RemoveIdKeepsAll | screens/MainScreen.js:247 | removing an absent id changes nothing |
| Leads.RemoveIdConcat | screens/MainScreen.js:247 | removal by id keeps the order of the remaining entries and distributes over concatenation |
| Leads.RemoveIdAt | screens/MainScreen.js:247 | with distinct ids, removing the id of entry `k` cuts out exactly that entry, and the entries before and after it stay in order |
| Leads.RemoveIdCutsOut | screens/MainScreen.js:247 | with distinct ids, removing an id cuts out the one entry that carries it and keeps the rest in order |
| Leads.FakeLeadsNumbered | screens/MainScreen.js:82-138 | the sample records are numbered 1 to 5 in order and carry no distance |
| Leads.FakeLeadsWellFormed | screens/MainScreen.js:82-138 | the sample records have pairwise distinct ids, exactly 1 to 5 |
| Selection.Toggle | screens/MainScreen.js:243-250 | an absent id is appended at the end; a present id disappears with all its entries and every entry with another id stays; with distinct ids the present entry is cut out of its place and the others keep their order; the toggled id's membership flips and every other id keeps it |
| Selection.ToggleKeepsIdsDistinct | screens/MainScreen.js:243-250 | toggling never creates two entries with one id |
| Selection.ToggleTwiceRestores | screens/MainScreen.js:243-250 | toggling an absent lead twice restores the exact selection |
| Selection.ToggleTwiceRestoresIds | screens/MainScreen.js:243-250 | toggling twice always restores the set of ids; a present lead moves to the end |
| Selection.SelectThreeFiveThenDeselectThree | screens/MainScreen.js:243-250 | selecting leads 3 and 5 and then tapping 3 again leaves only lead 5 |
| StableSort.Insert | screens/MainScreen.js:195 | inserting into a sorted sequence keeps it sorted and adds exactly the new element |
| StableSort.InsertionSort | screens/MainScreen.js:195 | the sort returns a sorted permutation of its input |
| StableSort.InsertWithKey | screens/MainScreen.js:195 | an inserted element goes in front of every element with its key |
| StableSort.InsertionSortIsStable | screens/MainScreen.js:195 | for every key, the elements with that key keep their input order |
| StableSort.SortedWithSameKeyRunsAreEqual | screens/MainScreen.js:195 | a stable sort is unique: two sorted sequences with the same key runs are equal |
| Listing.Annotate | screens/MainScreen.js:186-194 | every lead gets its distance from the location, in input order |
| Listing.KeepInRadius | screens/MainScreen.js:213 | exactly the leads with `distancia <= raio` stay, and an absent distance never passes |
| Listing.ByDistance | screens/MainScreen.js:185-195 | the listing is a permutation of the annotated leads, and each lead is sorted and annotated with its own distance |
| Listing.WithinRadiusByDistance | screens/MainScreen.js:203-214 | the radius listing is a permutation of the annotated leads within the radius, sorted and annotated |
| Listing.WithinRadiusMembers | screens/MainScreen.js:203-214 | a record is listed exactly when it is an annotated input lead at distance at most the radius |
| Listing.SortedByAnnotation | screens/MainScreen.js:195 | sorting by the key is sorting by `distancia` ascending |
| Listing.ByDistanceIsStable | screens/MainScreen.js:185-195 | leads at one distance keep their input order |
| Listing.KeepInRadiusWithKey | screens/MainScreen.js:213 | the radius filter keeps each equal-distance run within the radius whole and drops every run beyond it |
| Listing.WithinRadiusIsStable | screens/MainScreen.js:203-214 | leads at a distance within the radius keep their input order; leads beyond it are gone |
| Listing.NegativeRadiusKeepsNothing | screens/MainScreen.js:213 | with non-negative distances a negative radius lists nothing |
| NearestNeighbour.ReduceNearest | screens/MainScreen.js:60-74 | the reduction returns an index of the sequence |
| NearestNeighbour.ReduceNearestIsLastNearest | screens/MainScreen.js:60-74 | the reduction picks a nearest entry, and every later entry is strictly farther: the last of the equally near wins |
| NearestNeighbour.LastNearestIsUnique | screens/MainScreen.js:73 | the tie-break leaves exactly one admissible pick |
| NearestNeighbour.Route | screens/MainScreen.js:54-80 | the route is empty exactly when there is nothing to visit, and is never longer than the input |
| NearestNeighbour.OtimizarRota | screens/MainScreen.js:54-80 | the loop computes the greedy walk; it visits exactly the input's ids, each once, and with distinct input ids it is a permutation of the input |
| NearestNeighbour.RouteAppendStep | screens/MainScreen.js:75-77 | one iteration moves the picked stop to the end of the route, and what is left shrinks |
| NearestNeighbour.RouteFacts | screens/MainScreen.js:54-80 | the route's id set is the input's, no id repeats, and with distinct input ids the route is a permutation |
| NearestNeighbour.RouteIdSet | screens/MainScreen.js:75-76 | the route visits exactly the input's ids |
| NearestNeighbour.RouteDistinctIds | screens/MainScreen.js:76 | the route never visits an id twice, because the filter drops every entry with the picked id |
| NearestNeighbour.RoutePermutation | screens/MainScreen.js:54-80 | with distinct input ids the route is a permutation of the input and has its length |
| NearestNeighbour.RemoveIdsThenId | screens/MainScreen.js:76 | filtering one id and then a set of ids is filtering their union |
| NearestNeighbour.GreedyIffRoute | screens/MainScreen.js:54-80 | a sequence is the route exactly when each of its steps is the greedy pick (the last nearest of the entries whose ids were not visited before, from the current position) and, at its end, no entry of the input is left: the loop's exit condition |
| NearestNeighbour.WalkPick | screens/MainScreen.js:59-77 | step `i` of a walk is the reduction's pick among the input entries whose ids were not visited before step `i`, measured from the previous stop (or the origin) |
| NearestNeighbour.RouteIsGreedy | screens/MainScreen.js:59-77 | every step of the route is that greedy pick |
| NearestNeighbour.RouteStepIsNearest | screens/MainScreen.js:59-77 | the stop chosen at step `i` is at least as near to the current position as every input entry not yet visited |
| NearestNeighbour.PickIsNearest | screens/MainScreen.js:60-74 | a greedy pick is at least as near as every entry still left |
| Contact.DigitsOnly | screens/MainScreen.js:219 | the cleaned number is no longer than the input and holds only ASCII digits |
| Contact.DigitsOnlyKeepsEveryDigit | screens/MainScreen.js:219 | no digit is lost: each digit occurs as often as in the input |
| Contact.DigitsOnlyKeepsDigitStrings | screens/MainScreen.js:219 | a digits-only number is left unchanged |
| Contact.DigitsOnlyIdempotent | screens/MainScreen.js:219 | cleaning twice is cleaning once |
| Contact.DigitsOnlyConcat | screens/MainScreen.js:219 | the digits keep their order: cleaning a concatenation concatenates the cleaned parts |
| Contact.WhatsAppUrl | screens/MainScreen.js:218-220 | the link starts with `https://wa.me/55` and continues with digits only |
| Contact.WhatsAppUrlIgnoresFormatting | screens/MainScreen.js:218-220 | the number part of the link is the cleaned phone number, so formatting characters never change the link |
| Contact.StatusColor | screens/MainScreen.js:27-38 | every status gets one of four colours, and grey exactly for a status other than the three known ones |
| Contact.StatusColorRoundTrip | screens/MainScreen.js:27-38 | the colour of a known status identifies that status |
| MainScreen.HandleLeadClick | screens/MainScreen.js:183-198 | without a location nothing changes; otherwise only the list changes, to the stable distance listing of all leads (`Listing.ByDistance`): a permutation of them, annotated and sorted ascending by `distancia` |
| MainScreen.HandleSelectRaio | screens/MainScreen.js:200-216 | without a location nothing changes; otherwise the radius is remembered and the list becomes the stable radius listing (`Listing.WithinRadiusByDistance`): the annotated leads within it, sorted ascending; the selection is kept |
| MainScreen.ToggleSelecionarLead | screens/MainScreen.js:243-250 | only the selection changes, by the shared toggle rule (`Selection.Toggle`); the lead's membership flips and ids stay distinct |
| MainScreen.HandleMarkerPress | screens/MainScreen.js:226-233 | the pressed lead becomes the one shown in detail, and nothing else changes |
| MainScreen.CreateSingleRoute | screens/MainScreen.js:509-512 | with a lead shown, the selection becomes exactly that lead; nothing else changes |
| MainScreen.HandleCancelarRota | screens/MainScreen.js:280-283 | the selection and the drawn route are emptied, and nothing else changes |
| MainScreen.Coords | screens/MainScreen.js:260-263 | the coordinates of the stops, position by position |
| MainScreen.HandleCriarRotaMultipla | screens/MainScreen.js:252-278 | without a location or with fewer than two entries it only alerts; otherwise it changes only the polyline, which starts at the location, and the request's origin, destination and waypoints are the polyline's first point, last point and points in between |
| MainScreen.PolylineEnds | screens/MainScreen.js:258-274 | the polyline has one point more than the route, starts at the location, ends at the last stop, and passes through the other stops in between |
| MainScreen.CreatedRouteFollowsGreedyOrder | screens/MainScreen.js:257-274 | the polyline follows the greedy order stop by stop, the request ends at the last stop through all the others in order, and the route visits exactly the selected ids, each once |
| FilterDialog.Mount | components/ModalFiltroLeads.js:18-31 | the local copy starts as the given selection, or empty when it is absent, and no chip is set |
| FilterDialog.ToggleSelectLead | components/ModalFiltroLeads.js:49-59 | the toggle rule on the local copy: an absent lead is appended, a present id is removed, with distinct ids by cutting out its entry and keeping the others in order; membership flips, ids stay distinct, chips are kept; the new copy goes to `onSelectLead` when that callback exists |
| FilterDialog.ToggleSelectLeadTwiceRestores | components/ModalFiltroLeads.js:49-59 | two taps on an unselected row restore the dialog |
| FilterDialog.HandleFilterChange | components/ModalFiltroLeads.js:61-67 | only the named chip changes (an unknown name changes nothing), and `onFilterChange` receives the chips as they were before |
| FilterDialog.FilterChangeReportsOneBehind | components/ModalFiltroLeads.js:61-67 | the first chip press reports no chip at all, and the second press reports the first chip |
| FilterDialog.PressApply | components/ModalFiltroLeads.js:209 | "Aplicar Filtros" hands the local copy to `onApply` and keeps the dialog |
| FilterDialog.PressClose | components/ModalFiltroLeads.js:216 | "Cancelar" only closes, handing over no selection |
| FilterDialog.IsSelected | components/ModalFiltroLeads.js:166 | a row shows as selected exactly when some entry of the local copy has its id |
| FilterDialog.ToggleFlipsRow | components/ModalFiltroLeads.js:166-174 | tapping a row flips how that row shows and no other id's row |
| LeadsDialog.Mount | components/ModalLeads.js:14-16 | the local copy starts as the given selection, or empty when it is absent |
| LeadsDialog.ToggleSelect | components/ModalLeads.js:34-44 | the toggle rule on the local copy: an absent lead is appended, a present id is removed, with distinct ids by cutting out its entry and keeping the others in order; the new copy goes to `onSelectLead` when that callback exists |
| LeadsDialog.ToggleSelectTwiceRestores | components/ModalLeads.js:34-44 | two taps on an unselected row restore the dialog |
| LeadsDialog.PressClose | components/ModalLeads.js:107 | "Fechar" only closes, handing over no selection |
| LeadsDialog.IsSelected | components/ModalLeads.js:66 | a row shows as selected exactly when its id is among the local copy's ids |
| App.Mount | screens/MainScreen.js:148-158 | the screen mounts with its initial state, and both dialogs with empty copies |
| App.FromFilter | screens/MainScreen.js:375-388 | `onSelectLead` and `onApply` overwrite the shared selection; closing and chip changes leave the screen alone |
| App.FromList | screens/MainScreen.js:463-469 | `onSelectLead` overwrites the shared selection; closing leaves the screen alone |
| App.ScreenStep | screens/MainScreen.js:350-373 | the route buttons act only while more than one entry is selected (`MainScreen.RouteButtonsShown`) and are no event otherwise; a shown "Criar Rota (n paradas)" runs `handleCriarRotaMultipla` and a shown "Cancelar" empties the selection and the route; the lead listing, a radius chip, the detail dialog's "Criar Rota" and a marker run their handlers, and a route-row tap toggles the shared selection; only route-row taps, the detail dialog's "Criar Rota" and cancelling touch the selection; only the location, the lead listing and the radius touch the location and the list |
| App.FilterReaction | components/ModalFiltroLeads.js:174-216 | a row tap hands over the toggled copy, "Aplicar Filtros" hands over the unchanged copy, closing and chip presses hand over no selection, and only a row tap changes the copy |
| App.ListReaction | components/ModalLeads.js:74-107 | a row tap hands over the toggled copy; closing keeps the dialog and only closes |
| App.Step | screens/MainScreen.js:375-469 | a screen event leaves both dialogs' copies alone and a dialog event leaves the other dialog alone; a row tap in either dialog makes the shared selection the toggled copy, "Aplicar Filtros" makes it the filter copy, and the rest of the screen is kept |
| App.MountSelectionsDistinct | screens/MainScreen.js:157 | at mount no selection repeats an id |
| App.StepKeepsSelectionsDistinct | screens/MainScreen.js:243-250 | every event keeps all three selections free of repeated ids |
| App.FilterRowTapOverwritesSelection | screens/MainScreen.js:379 | a filter-dialog row tap replaces the shared selection by the dialog's toggled copy |
| App.ListRowTapOverwritesSelection | screens/MainScreen.js:467 | a list-dialog row tap replaces the shared selection by the dialog's toggled copy |
| App.DialogButtonsOnSelection | screens/MainScreen.js:378-384 | "Aplicar Filtros" publishes the filter copy, closing keeps everything, and a chip press changes only the chips |
| App.CancelledLeadsComeBack | components/ModalFiltroLeads.js:28 | after two filter-dialog taps and a cancel on the screen, the next filter-dialog tap brings both cancelled leads back |
| App.SingleRouteHidesRouteButtons | screens/MainScreen.js:350-373 | "Criar Rota" in the detail dialog leaves one entry, so the route buttons are hidden and pressing "Criar Rota (n paradas)" is no event |
| App.DialogsOverwriteEachOther | components/ModalLeads.js:16 | a list-dialog tap discards what the filter dialog selected |
| App.RouteDialogChoiceIsLostToDialogTap | screens/MainScreen.js:379 | a choice made in the route dialog is lost at the next filter-dialog tap |

## Left out

- `calcularDistancia` (screens/MainScreen.js:40-51), the haversine formula. It is floating-point trigonometry, so it is a parameter of every operation and never evaluated; no property depends on its values.
- Floating point: coordinates and distances are reals, with no NaN and no rounding. The sort comparator `a.distancia - b.distancia` is modelled as a comparison of reals.
- Rendering the maps request as a URL string (screens/MainScreen.js:267-275), opening it (`Linking.openURL`), and the alerts. The request is returned as coordinates, and the alert as a value.
- The location permission request (screens/MainScreen.js:164-174). It is asynchronous platform I/O; its result enters the model as the event `LocationAcquired`, and a refusal as no event.
- Modal visibility, animations, the markers shown on the map, the profile and logout dialogs, and `console.log` in the screen's `onFilterChange` (screens/MainScreen.js:385-387). These are presentation only.
- The login screen, the authentication context, the navigator and the profile modal. They are not part of this model.
- App.FilterRowTapOverwritesSelection: the model lets a dialog row tap carry any lead, not only one of the listed `leadsFiltrados`, which is more general than the source.
- MainScreen.HandleMarkerPress: a marker carries any lead; the source offers the sample records, or the radius listing once a radius is set.
- NearestNeighbour.ReduceNearest: its own contract only bounds the index; which entry it picks is stated by `NearestNeighbour.ReduceNearestIsLastNearest`.
- NearestNeighbour.Route: its own contract states only emptiness and length; the visiting order is stated by `NearestNeighbour.RouteIsGreedy` and `NearestNeighbour.GreedyIffRoute`, and the contents by `NearestNeighbour.RouteFacts`.
- Taps before the location arrives. In the source nothing can be tapped before the location is known: the lead lists stay empty (screens/MainScreen.js:184, 201) and the markers are drawn only inside the map (screens/MainScreen.js:287). The model lets the events `RouteRowTap`, `ListRowTap`, `FilterRowTap` and `MarkerPress` carry any lead in any state, which is more general than the source. In particular it reaches the missing-location alert of `handleCriarRotaMultipla`, which the source never shows.

=== FILE: app.dfy ===
/**
  The screen together with its two selection dialogs. Both dialogs stay
  mounted for the screen's whole life (only their visibility changes), so
  each seeds its local copy from the shared selection exactly once, when the
  screen mounts and the shared selection is still empty. After that the
  three selections move independently, and whichever of them is written to
  the shared selection last wins.
 */
module App {
  import opened Leads
  import opened Selection
  import opened MainScreen
  import FilterDialog
  import LeadsDialog

  datatype App = App(screen: Screen, filter: FilterDialog.Dialog, list: LeadsDialog.Dialog)

  /** The screen passes `onSelectLead` and `onFilterChange` to the filter
      dialog. */
  const FilterProps: FilterDialog.Props := FilterDialog.Props(true, true)

  /** What the user or the platform does on the screen itself. */
  datatype ScreenEvent =
    | LocationAcquired(here: Coord)   // the position arrives
    | LeadClick                       // handleLeadClick
    | SelectRaio(km: int)             // a radius chip of the route dialog
    | RouteRowTap(lead: Lead)         // a row of the route dialog
    | MarkerPress(lead: Lead)         // a map marker
    | SingleRoute                     // "Criar Rota" of the detail dialog
    | CreateRoute                     // "Criar Rota (n paradas)"
    | CancelRoute                     // "Cancelar" under it

  /** What the user does in the filter dialog. */
  datatype FilterEvent =
    | FilterRowTap(lead: Lead)                                 // a lead row
    | FilterChip(kind: string, value: FilterDialog.ChipValue)  // a chip
    | FilterApply                                              // "Aplicar Filtros"
    | FilterClose                                              // "Cancelar", close icon, overlay

  /** What the user does in the list dialog. */
  datatype ListEvent =
    | ListRowTap(lead: Lead)   // a lead row
    | ListClose                // "Fechar", close icon, overlay

  datatype Event = OnScreen(s: ScreenEvent) | OnFilter(f: FilterEvent) | OnList(l: ListEvent)

  /** The screen and both dialogs as they mount. */
  function Mount(): (a: App)
    ensures a.screen == Initial
    ensures a.filter.localSelection == [] && a.list.localSelection == []
  {
    App(Initial,
        FilterDialog.Mount(Some(Initial.leadsSelecionados)),
        LeadsDialog.Mount(Some(Initial.leadsSelecionados)))
  }

  /** The screen's reaction to what the filter dialog hands over: both
      `onSelectLead` and `onApply` overwrite the shared selection;
      `onClose` and `onFilterChange` leave it alone. */
  function FromFilter(st: Screen, out: FilterDialog.Output): (r: Screen)
    ensures (out.SelectLead? || out.Apply?) ==> r == st.(leadsSelecionados := out.selection)
    ensures !(out.SelectLead? || out.Apply?) ==> r == st
  {
    match out
    case SelectLead(s) => st.(leadsSelecionados := s)
    case Apply(s) => st.(leadsSelecionados := s)
    case _ => st
  }

  /** The screen's reaction to what the list dialog hands over. */
  function FromList(st: Screen, out: LeadsDialog.Output): (r: Screen)
    ensures out.SelectLead? ==> r == st.(leadsSelecionados := out.selection)
    ensures !out.SelectLead? ==> r == st
  {
    match out
    case SelectLead(s) => st.(leadsSelecionados := s)
    case _ => st
  }

  /** A screen event. The screen lists the sample leads; `dist` is the
      distance the screen computes. The two route buttons are not rendered
      with fewer than two selected entries, so pressing them then is no
      event at all. */
  function ScreenStep(st: Screen, e: ScreenEvent, dist: Distance): (r: Screen)
    ensures e.LocationAcquired? ==> r == st.(location := Some(e.here))
    ensures e.LeadClick? ==> r == HandleLeadClick(st, FakeLeads, dist)
    ensures e.SelectRaio? ==> r == HandleSelectRaio(st, FakeLeads, e.km as real, dist)
    ensures e.RouteRowTap? ==> r == st.(leadsSelecionados := Toggle(st.leadsSelecionados, e.lead))
    ensures e.MarkerPress? ==> r == st.(leadSelecionado := Some(e.lead))
    ensures e.SingleRoute? ==> r == CreateSingleRoute(st)
    ensures e.CreateRoute? && RouteButtonsShown(st) ==> r == HandleCriarRotaMultipla(st, dist).screen
    ensures (e.CreateRoute? || e.CancelRoute?) && !RouteButtonsShown(st) ==> r == st
    ensures e.CancelRoute? && RouteButtonsShown(st) ==> r.leadsSelecionados == [] && r.rotaCoordenadas == []
    ensures !(e.RouteRowTap? || e.SingleRoute? || e.CancelRoute?) ==> r.leadsSelecionados == st.leadsSelecionados
    ensures !(e.LocationAcquired? || e.LeadClick? || e.SelectRaio?) ==>
              r.location == st.location && r.leadsFiltrados == st.leadsFiltrados
  {
    match e
    case LocationAcquired(here) => st.(location := Some(here))
    case LeadClick => HandleLeadClick(st, FakeLeads, dist)
    case SelectRaio(km) => HandleSelectRaio(st, FakeLeads, km as real, dist)
    case RouteRowTap(lead) => ToggleSelecionarLead(st, lead)
    case MarkerPress(lead) => HandleMarkerPress(st, lead)
    case SingleRoute => CreateSingleRoute(st)
    case CreateRoute => if RouteButtonsShown(st) then HandleCriarRotaMultipla(st, dist).screen else st
    case CancelRoute => if RouteButtonsShown(st) then HandleCancelarRota(st) else st
  }

  /** The filter dialog's reaction to an event: a row tap hands the toggled
      copy over, the other buttons never change the copy. */
  function FilterReaction(d: FilterDialog.Dialog, e: FilterEvent): (r: FilterDialog.Reaction)
    ensures e.FilterRowTap? ==> r.dialog.localSelection == Toggle(d.localSelection, e.lead)
    ensures e.FilterRowTap? ==> r.output == FilterDialog.SelectLead(r.dialog.localSelection)
    ensures e.FilterApply? ==> r.output == FilterDialog.Apply(d.localSelection)
    ensures !e.FilterRowTap? ==> r.dialog.localSelection == d.localSelection
    ensures e.FilterClose? || e.FilterChip? ==> !r.output.SelectLead? && !r.output.Apply?
  {
    match e
    case FilterRowTap(lead) => FilterDialog.ToggleSelectLead(d, lead, FilterProps)
    case FilterChip(kind, value) => FilterDialog.HandleFilterChange(d, kind, value, FilterProps)
    case FilterApply => FilterDialog.PressApply(d)
    case FilterClose => FilterDialog.PressClose(d)
  }

  /** The list dialog's reaction to an event. */
  function ListReaction(d: LeadsDialog.Dialog, e: ListEvent): (r: LeadsDialog.Reaction)
    ensures e.ListRowTap? ==> r.dialog.localSelection == Toggle(d.localSelection, e.lead)
    ensures e.ListRowTap? ==> r.output == LeadsDialog.SelectLead(r.dialog.localSelection)
    ensures e.ListClose? ==> r == LeadsDialog.Reaction(d, LeadsDialog.Close)
  {
    match e
    case ListRowTap(lead) => LeadsDialog.ToggleSelect(d, lead, true)
    case ListClose => LeadsDialog.PressClose(d)
  }

  /** One event: the component it is addressed to reacts, and the screen
      takes in what a dialog hands over. A component never touches another
      dialog's copy. */
  function Step(a: App, e: Event, dist: Distance): (b: App)
    ensures e.OnScreen? ==> b.filter == a.filter && b.list == a.list
    ensures e.OnScreen? ==> b.screen == ScreenStep(a.screen, e.s, dist)
    ensures e.OnFilter? ==> b.list == a.list
    ensures e.OnList? ==> b.filter == a.filter
    ensures e.OnFilter? && (e.f.FilterRowTap? || e.f.FilterApply?) ==>
              b.screen == a.screen.(leadsSelecionados := b.screen.leadsSelecionados)
    ensures e.OnFilter? && e.f.FilterRowTap? ==>
              b.screen.leadsSelecionados == b.filter.localSelection == Toggle(a.filter.localSelection, e.f.lead)
    ensures e.OnFilter? && e.f.FilterApply? ==> b.screen.leadsSelecionados == a.filter.localSelection
    ensures e.OnList? && e.l.ListRowTap? ==>
              b.screen == a.screen.(leadsSelecionados := b.list.localSelection)
    ensures e.OnList? && e.l.ListRowTap? ==> b.list.localSelection == Toggle(a.list.localSelection, e.l.lead)
  {
    match e
    case OnScreen(s) => a.(screen := ScreenStep(a.screen, s, dist))
    case OnFilter(f) =>
      var r := FilterReaction(a.filter, f);
      App(FromFilter(a.screen, r.output), r.dialog, a.list)
    case OnList(l) =>
      var r := ListReaction(a.list, l);
      App(FromList(a.screen, r.output), a.filter, r.dialog)
  }

  /** No selection ever holds two entries with the same id. */
  ghost predicate SelectionsDistinct(a: App) {
    && DistinctIds(a.screen.leadsSelecionados)
    && DistinctIds(a.filter.localSelection)
    && DistinctIds(a.list.localSelection)
  }

  lemma MountSelectionsDistinct()
    ensures SelectionsDistinct(Mount())
  {
  }

  /** Every event keeps every selection free of duplicate ids. */
  lemma StepKeepsSelectionsDistinct(a: App, e: Event, dist: Distance)
    requires SelectionsDistinct(a)
    ensures SelectionsDistinct(Step(a, e, dist))
  {
    match e
    case OnScreen(s) =>
      if s.RouteRowTap? {
        ToggleKeepsIdsDistinct(a.screen.leadsSelecionados, s.lead);
      }
    case OnFilter(f) =>
    case OnList(l) =>
  }

  /** A row tap in the filter dialog replaces the shared selection by the
      dialog's toggled copy, whatever the shared selection held. */
  lemma FilterRowTapOverwritesSelection(a: App, lead: Lead, dist: Distance)
    ensures var b := Step(a, OnFilter(FilterRowTap(lead)), dist);
            && b.screen.leadsSelecionados == b.filter.localSelection
            && b.filter.localSelection == Toggle(a.filter.localSelection, lead)
            && b.screen == a.screen.(leadsSelecionados := b.filter.localSelection)
            && b.list == a.list
  {
  }

  /** A row tap in the list dialog replaces the shared selection by the
      dialog's toggled copy, whatever the shared selection held. */
  lemma ListRowTapOverwritesSelection(a: App, lead: Lead, dist: Distance)
    ensures var b := Step(a, OnList(ListRowTap(lead)), dist);
            && b.screen.leadsSelecionados == b.list.localSelection
            && b.list.localSelection == Toggle(a.list.localSelection, lead)
            && b.screen == a.screen.(leadsSelecionados := b.list.localSelection)
            && b.filter == a.filter
  {
  }

  /** "Aplicar Filtros" publishes the filter dialog's copy; every way of
      closing a dialog keeps the shared selection; a chip press changes only
      the chips. */
  lemma DialogButtonsOnSelection(a: App, kind: string, value: FilterDialog.ChipValue, dist: Distance)
    ensures Step(a, OnFilter(FilterApply), dist).screen.leadsSelecionados == a.filter.localSelection
    ensures Step(a, OnFilter(FilterApply), dist).filter == a.filter
    ensures Step(a, OnFilter(FilterClose), dist) == a
    ensures Step(a, OnList(ListClose), dist) == a
    ensures Step(a, OnFilter(FilterChip(kind, value)), dist).screen == a.screen
    ensures Step(a, OnFilter(FilterChip(kind, value)), dist).filter.localSelection == a.filter.localSelection
  {
  }

  /** The stale copy in practice: select `x` and `y` in the filter dialog,
      cancel the route on the screen (its buttons show, with two entries),
      then select `z` in the filter dialog. The cancelled `x` and `y` come
      back, because the dialog's copy never learnt of the cancel. */
  lemma CancelledLeadsComeBack(x: Lead, y: Lead, z: Lead, dist: Distance)
    requires x.id != y.id && x.id != z.id && y.id != z.id
    ensures var a1 := Step(Mount(), OnFilter(FilterRowTap(x)), dist);
            var a2 := Step(a1, OnFilter(FilterRowTap(y)), dist);
            var a3 := Step(a2, OnScreen(CancelRoute), dist);
            var a4 := Step(a3, OnFilter(FilterRowTap(z)), dist);
            && a2.screen.leadsSelecionados == [x, y]
            && a3.screen.leadsSelecionados == []
            && a4.screen.leadsSelecionados == [x, y, z]
  {
    var a1 := Step(Mount(), OnFilter(FilterRowTap(x)), dist);
    assert a1.filter.localSelection == [x];
    assert !HasId([x], y.id);
    var a2 := Step(a1, OnFilter(FilterRowTap(y)), dist);
    assert a2.filter.localSelection == [x, y];
    assert RouteButtonsShown(a2.screen);
    var a3 := Step(a2, OnScreen(CancelRoute), dist);
    assert a3.filter == a2.filter;
    assert !HasId([x, y], z.id);
  }

  /** The two dialogs overwrite each other: after choosing `x` in the filter
      dialog, choosing `y` in the list dialog leaves only `y` selected. */
  lemma DialogsOverwriteEachOther(x: Lead, y: Lead, dist: Distance)
    ensures var a1 := Step(Mount(), OnFilter(FilterRowTap(x)), dist);
            var a2 := Step(a1, OnList(ListRowTap(y)), dist);
            && a1.screen.leadsSelecionados == [x]
            && a2.screen.leadsSelecionados == [y]
  {
    var a1 := Step(Mount(), OnFilter(FilterRowTap(x)), dist);
    FilterRowTapOverwritesSelection(Mount(), x, dist);
    ListRowTapOverwritesSelection(a1, y, dist);
  }

  /** Ticking a row in the route dialog is invisible to the dialogs: the
      shared selection holds it, but a later dialog tap replaces it. */
  lemma RouteDialogChoiceIsLostToDialogTap(x: Lead, y: Lead, dist: Distance)
    ensures var a1 := Step(Mount(), OnScreen(RouteRowTap(x)), dist);
            var a2 := Step(a1, OnFilter(FilterRowTap(y)), dist);
            && a1.screen.leadsSelecionados == [x]
            && a2.screen.leadsSelecionados == [y]
  {
  }

  /** "Criar Rota" in the detail dialog selects exactly the shown lead. One
      entry is too few for the route buttons, so none is shown and no route
      can be created until a second lead is selected. */
  lemma SingleRouteHidesRouteButtons(a: App, lead: Lead, dist: Distance)
    ensures var a1 := Step(a, OnScreen(MarkerPress(lead)), dist);
            var a2 := Step(a1, OnScreen(SingleRoute), dist);
            && a2.screen.leadsSelecionados == [lead]
            && !RouteButtonsShown(a2.screen)
            && Step(a2, OnScreen(CreateRoute), dist) == a2
  {
  }
}

=== FILE: contact.dfy ===
/**
  Small pure helpers of the main screen: the WhatsApp link built from a
  lead's phone number (`handleOpenWhatsApp`) and the marker colour chosen by
  a lead's status (`getStatusColor`).
 */
module Contact {
  import opened Leads

  /** What `\d` matches in a JavaScript regular expression without the `u`
      flag: the ASCII digits. */
  predicate IsDigit(c: char) {
    '0' <= c <= '9'
  }

  /** `telefone.replace(/\D/g, "")`: every non-digit removed. */
  function DigitsOnly(s: string): (r: string)
    ensures |r| <= |s|
    ensures forall i :: 0 <= i < |r| ==> IsDigit(r[i])
  {
    if |s| == 0 then ""
    else (if IsDigit(s[0]) then [s[0]] else "") + DigitsOnly(s[1..])
  }

  /** No digit is lost: every digit occurs in the result as often as in the
      input. */
  lemma {:induction false} DigitsOnlyKeepsEveryDigit(s: string, c: char)
    requires IsDigit(c)
    ensures multiset(DigitsOnly(s))[c] == multiset(s)[c]
    decreases |s|
  {
    if |s| > 0 {
      DigitsOnlyKeepsEveryDigit(s[1..], c);
      assert s == [s[0]] + s[1..];
      assert multiset(s) == multiset{s[0]} + multiset(s[1..]);
    }
  }

  /** A string of digits only is left as it is. */
  lemma {:induction false} DigitsOnlyKeepsDigitStrings(s: string)
    requires forall i :: 0 <= i < |s| ==> IsDigit(s[i])
    ensures DigitsOnly(s) == s
    decreases |s|
  {
    if |s| > 0 {
      DigitsOnlyKeepsDigitStrings(s[1..]);
      assert s == [s[0]] + s[1..];
    }
  }

  /** Cleaning twice is cleaning once. */
  lemma DigitsOnlyIdempotent(s: string)
    ensures DigitsOnly(DigitsOnly(s)) == DigitsOnly(s)
  {
    DigitsOnlyKeepsDigitStrings(DigitsOnly(s));
  }

  /** The digits keep their order: cleaning a concatenation is concatenating
      the cleaned parts. */
  lemma {:induction false} DigitsOnlyConcat(a: string, b: string)
    ensures DigitsOnly(a + b) == DigitsOnly(a) + DigitsOnly(b)
    decreases |a|
  {
    if |a| == 0 {
      assert a + b == b;
    } else {
      assert (a + b)[0] == a[0];
      assert (a + b)[1..] == a[1..] + b;
      DigitsOnlyConcat(a[1..], b);
    }
  }

  const WhatsAppPrefix: string := "https://wa.me/55"

  /** The link opened for a phone number: the Brazilian country code 55 in
      front of the cleaned number. */
  function WhatsAppUrl(telefone: string): (url: string)
    ensures |url| >= |WhatsAppPrefix| && url[..|WhatsAppPrefix|] == WhatsAppPrefix
    ensures forall i :: |WhatsAppPrefix| <= i < |url| ==> IsDigit(url[i])
  {
    WhatsAppPrefix + DigitsOnly(telefone)
  }

  /** The number part of the link is the cleaned phone number, so formatting
      characters in the stored number never change the link. */
  lemma WhatsAppUrlIgnoresFormatting(telefone: string)
    ensures WhatsAppUrl(telefone)[|WhatsAppPrefix|..] == DigitsOnly(telefone)
    ensures WhatsAppUrl(DigitsOnly(telefone)) == WhatsAppUrl(telefone)
  {
    DigitsOnlyIdempotent(telefone);
  }

  const Green: string := "#4CAF50"
  const Orange: string := "#FF9800"
  const Blue: string := "#2196F3"
  const Grey: string := "#9E9E9E"

  /** The three statuses a lead can have. */
  const KnownStatuses: set<string> := {"Novo", "Em Negociação", "Fechado"}

  /** Marker colour for a status; any other value gets grey. */
  function StatusColor(status: string): (color: string)
    ensures color in {Green, Orange, Blue, Grey}
    ensures color == Grey <==> status !in KnownStatuses
  {
    match status
    case "Novo" => Green
    case "Em Negociação" => Orange
    case "Fechado" => Blue
    case _ => Grey
  }

  /** The status a non-grey colour stands for. */
  function StatusOfColor(color: string): Option<string> {
    if color == Green then Some("Novo")
    else if color == Orange then Some("Em Negociação")
    else if color == Blue then Some("Fechado")
    else None
  }

  /** The colour of a known status identifies it; every other status shares
      the grey default. */
  lemma StatusColorRoundTrip(status: string)
    ensures StatusOfColor(StatusColor(status)) ==
            if status in KnownStatuses then Some(status) else None
  {
  }
}

=== FILE: filter_dialog.dfy ===
/**
  The filter dialog (`ModalFiltroLeads`): a local working copy of the
  selection, seeded once when the dialog mounts, and three filter chips. Each
  handler returns the dialog's next state and what it hands to the screen
  through its callbacks.
 */
module FilterDialog {
  import opened Leads
  import opened Selection

  /** A chip's value: a radius in km or a label. */
  datatype ChipValue = Km(km: int) | Label(text: string)

  /** The three chip selections, all unset at mount. */
  datatype Chips = Chips(raio: Option<ChipValue>, status: Option<ChipValue>, tipo: Option<ChipValue>)

  datatype Dialog = Dialog(localSelection: seq<Lead>, chips: Chips)

  /** Which optional callbacks the screen passed in. `onApply` and `onClose`
      are always called unguarded. */
  datatype Props = Props(hasOnSelectLead: bool, hasOnFilterChange: bool)

  /** What the dialog hands to its parent. */
  datatype Output =
    | Silent
    | SelectLead(selection: seq<Lead>)   // onSelectLead(updated)
    | Apply(selection: seq<Lead>)        // onApply(localSelection)
    | Close                              // onClose()
    | FilterChange(reported: Chips)      // onFilterChange({raio, status, tipo})

  datatype Reaction = Reaction(dialog: Dialog, output: Output)

  /** The dialog as it mounts: the local copy starts as `selectedLeads`, or
      empty when that is absent. */
  function Mount(selectedLeads: Option<seq<Lead>>): (d: Dialog)
    ensures selectedLeads.Some? ==> d.localSelection == selectedLeads.value
    ensures selectedLeads.None? ==> d.localSelection == []
    ensures d.chips.raio.None? && d.chips.status.None? && d.chips.tipo.None?
  {
    Dialog(match selectedLeads case Some(s) => s case None => [], Chips(None, None, None))
  }

  /** `toggleSelectLead(lead)`: toggle in the local copy and, when the
      callback exists, hand the new copy to the screen. */
  function ToggleSelectLead(d: Dialog, lead: Lead, props: Props): (r: Reaction)
    ensures r.dialog.chips == d.chips
    ensures !HasId(d.localSelection, lead.id) ==> r.dialog.localSelection == d.localSelection + [lead]
    ensures HasId(d.localSelection, lead.id) ==>
              forall x :: x in r.dialog.localSelection <==> x in d.localSelection && x.id != lead.id
    ensures DistinctIds(d.localSelection) ==>
              forall k :: 0 <= k < |d.localSelection| && d.localSelection[k].id == lead.id ==>
                r.dialog.localSelection == d.localSelection[..k] + d.localSelection[k + 1..]
    ensures HasId(r.dialog.localSelection, lead.id) <==> !HasId(d.localSelection, lead.id)
    ensures DistinctIds(d.localSelection) ==> DistinctIds(r.dialog.localSelection)
    ensures props.hasOnSelectLead ==> r.output == SelectLead(r.dialog.localSelection)
    ensures !props.hasOnSelectLead ==> r.output == Silent
  {
    ToggleKeepsIdsDistinct(d.localSelection, lead);
    var updated := Toggle(d.localSelection, lead);
    Reaction(d.(localSelection := updated), if props.hasOnSelectLead then SelectLead(updated) else Silent)
  }

  /** Two taps on a row that was not selected restore the local copy exactly. */
  lemma ToggleSelectLeadTwiceRestores(d: Dialog, lead: Lead, props: Props)
    requires !HasId(d.localSelection, lead.id)
    ensures ToggleSelectLead(ToggleSelectLead(d, lead, props).dialog, lead, props).dialog == d
  {
    ToggleTwiceRestores(d.localSelection, lead);
  }

  /** `handleFilterChange(type, value)`: set the chip named by `type`. The
      callback receives the chips as they were BEFORE this change, because the
      state setters only take effect on the next render. */
  function HandleFilterChange(d: Dialog, kind: string, value: ChipValue, props: Props): (r: Reaction)
    ensures r.dialog.localSelection == d.localSelection
    ensures kind !in {"raio", "status", "tipo"} ==> r.dialog == d
    ensures r.dialog.chips.raio == if kind == "raio" then Some(value) else d.chips.raio
    ensures r.dialog.chips.status == if kind == "status" then Some(value) else d.chips.status
    ensures r.dialog.chips.tipo == if kind == "tipo" then Some(value) else d.chips.tipo
    ensures props.hasOnFilterChange ==> r.output == FilterChange(d.chips)
    ensures !props.hasOnFilterChange ==> r.output == Silent
  {
    var chips := d.chips;
    var chips := if kind == "raio" then chips.(raio := Some(value)) else chips;
    var chips := if kind == "status" then chips.(status := Some(value)) else chips;
    var chips := if kind == "tipo" then chips.(tipo := Some(value)) else chips;
    Reaction(d.(chips := chips), if props.hasOnFilterChange then FilterChange(d.chips) else Silent)
  }

  /** The first chip press of a freshly mounted dialog reports no chip at
      all; a second press reports the first one. */
  lemma FilterChangeReportsOneBehind(v: ChipValue, w: ChipValue, props: Props)
    requires props.hasOnFilterChange
    ensures var first := HandleFilterChange(Mount(None), "raio", v, props);
            var second := HandleFilterChange(first.dialog, "status", w, props);
            && first.output == FilterChange(Chips(None, None, None))
            && second.output == FilterChange(Chips(Some(v), None, None))
            && second.dialog.chips == Chips(Some(v), Some(w), None)
  {
  }

  /** "Aplicar Filtros": hand the local copy to `onApply`. */
  function PressApply(d: Dialog): (r: Reaction)
    ensures r.dialog == d
    ensures r.output.Apply? && r.output.selection == d.localSelection
  {
    Reaction(d, Apply(d.localSelection))
  }

  /** "Cancelar", the close icon, the overlay and the back button: only
      `onClose`, no selection is handed over. */
  function PressClose(d: Dialog): (r: Reaction)
    ensures r.dialog == d
    ensures r.output == Close
  {
    Reaction(d, Close)
  }

  /** A row is shown selected when some entry of the local copy has its id. */
  function IsSelected(d: Dialog, lead: Lead): (b: bool)
    ensures b <==> exists i :: 0 <= i < |d.localSelection| && d.localSelection[i].id == lead.id
  {
    HasId(d.localSelection, lead.id)
  }

  /** Tapping a row flips how that row is shown and leaves every row with a
      different id as it was. */
  lemma ToggleFlipsRow(d: Dialog, lead: Lead, other: Lead, props: Props)
    ensures var after := ToggleSelectLead(d, lead, props).dialog;
            && (IsSelected(after, lead) <==> !IsSelected(d, lead))
            && (other.id != lead.id ==> (IsSelected(after, other) <==> IsSelected(d, other)))
  {
  }
}

=== FILE: leads.dfy ===
/**
  Lead records and coordinates, plus the id-keyed sequence operations that the
  main screen and both selection dialogs share: membership by `id`
  (`find`/`some` with `===` on ids) and removal of every entry with an `id`
  (`filter` with `!==`).
 */
module Leads {

  datatype Option<+T> = None | Some(value: T)

  /** A position in decimal degrees (WGS84). */
  datatype Coord = Coord(latitude: real, longitude: real)

  /** The great-circle distance in km between two positions. The haversine
      formula itself is not modelled: every operation takes the distance as a
      parameter and never evaluates it. */
  type Distance = (Coord, Coord) -> real

  /** A prospect record. `distancia` is absent on the raw records and set by
      the distance listing, which spreads the record and adds the field. */
  datatype Lead = Lead(
    id: int,
    nome: string,
    email: string,
    telefone: string,
    coord: Coord,
    tipo: string,
    status: string,
    endereco: string,
    distancia: Option<real>)

  /** Some entry of `s` carries `id` (what `find` and `some` decide). */
  function HasId(s: seq<Lead>, id: int): (b: bool)
    ensures b <==> exists i :: 0 <= i < |s| && s[i].id == id
  {
    |s| > 0 && (s[0].id == id || HasId(s[1..], id))
  }

  /** Appending one entry adds exactly its id. */
  lemma HasIdAppend(s: seq<Lead>, x: Lead)
    ensures forall id :: HasId(s + [x], id) <==> HasId(s, id) || x.id == id
  {
    forall id ensures HasId(s + [x], id) <==> HasId(s, id) || x.id == id {
      if HasId(s + [x], id) && x.id != id {
        var i :| 0 <= i < |s + [x]| && (s + [x])[i].id == id;
        assert s[i].id == id;
      }
      if HasId(s, id) {
        var i :| 0 <= i < |s| && s[i].id == id;
        assert (s + [x])[i].id == id;
      }
      assert (s + [x])[|s|] == x;
    }
  }

  /** The ids occurring in `s`. */
  function IdSet(s: seq<Lead>): (ids: set<int>)
    ensures forall id :: id in ids <==> HasId(s, id)
  {
    if |s| == 0 then {} else {s[0].id} + IdSet(s[1..])
  }

  /** Appending one entry adds its id to the id set. */
  lemma IdSetAppend(s: seq<Lead>, x: Lead)
    ensures IdSet(s + [x]) == IdSet(s) + {x.id}
  {
    HasIdAppend(s, x);
    forall id ensures id in IdSet(s + [x]) <==> id in IdSet(s) + {x.id} {
      assert id in IdSet(s + [x]) <==> HasId(s + [x], id);
      assert id in IdSet(s) <==> HasId(s, id);
    }
  }

  /** No two entries share an id. */
  ghost predicate DistinctIds(s: seq<Lead>) {
    forall i, j :: 0 <= i < j < |s| ==> s[i].id != s[j].id
  }

  /** Putting a lead in front adds its id to the id set. */
  lemma IdSetCons(x: Lead, s: seq<Lead>)
    ensures IdSet([x] + s) == {x.id} + IdSet(s)
  {
    assert ([x] + s)[1..] == s;
  }

  /** Putting a lead in front of a sequence that lacks its id keeps ids
      distinct. */
  lemma DistinctIdsCons(x: Lead, s: seq<Lead>)
    requires DistinctIds(s)
    requires x.id !in IdSet(s)
    ensures DistinctIds([x] + s)
  {
    var r := [x] + s;
    forall i, j | 0 <= i < j < |r| ensures r[i].id != r[j].id {
      assert r[j] == s[j - 1];
      if i == 0 {
        assert HasId(s, s[j - 1].id);
      } else {
        assert r[i] == s[i - 1];
      }
    }
  }

  /** Every entry whose id differs from `id`, in their original order
      (`s.filter(l => l.id !== id)`). */
  function RemoveId(s: seq<Lead>, id: int): (r: seq<Lead>)
    ensures forall x :: x in r <==> x in s && x.id != id
    ensures |r| <= |s|
    ensures HasId(s, id) <==> |r| < |s|
  {
    if |s| == 0 then []
    else if s[0].id == id then RemoveId(s[1..], id)
    else [s[0]] + RemoveId(s[1..], id)
  }

  /** Removal by id takes away exactly that id from the id set. */
  lemma RemoveIdIds(s: seq<Lead>, id: int)
    ensures IdSet(RemoveId(s, id)) == IdSet(s) - {id}
  {
    var r := RemoveId(s, id);
    forall k ensures k in IdSet(r) <==> k in IdSet(s) - {id} {
      if HasId(r, k) {
        var i :| 0 <= i < |r| && r[i].id == k;
        assert r[i] in s;
      }
      if HasId(s, k) && k != id {
        var i :| 0 <= i < |s| && s[i].id == k;
        assert s[i] in r;
      }
    }
  }

  /** Removal by id keeps ids pairwise distinct. */
  lemma {:induction false} RemoveIdDistinct(s: seq<Lead>, id: int)
    requires DistinctIds(s)
    ensures DistinctIds(RemoveId(s, id))
    decreases |s|
  {
    if |s| > 0 {
      RemoveIdDistinct(s[1..], id);
      var rest := RemoveId(s[1..], id);
      if s[0].id != id {
        forall x | x in rest ensures x.id != s[0].id {
          var j :| 0 <= j < |s[1..]| && s[1..][j] == x;
          assert s[j + 1] == x;
        }
        assert RemoveId(s, id) == [s[0]] + rest;
      }
    }
  }

  /** With distinct ids, removing the id of one entry removes exactly that
      entry. */
  lemma {:induction false} RemoveIdMultiset(s: seq<Lead>, k: nat)
    requires DistinctIds(s)
    requires k < |s|
    ensures multiset(RemoveId(s, s[k].id)) == multiset(s) - multiset{s[k]}
    decreases |s|
  {
    assert s == [s[0]] + s[1..];
    if k == 0 {
      assert !HasId(s[1..], s[0].id) by {
        forall j | 0 <= j < |s[1..]| ensures s[1..][j].id != s[0].id {
          assert s[1..][j] == s[j + 1];
        }
      }
      assert |RemoveId(s[1..], s[0].id)| == |s[1..]|;
      RemoveIdKeepsAll(s[1..], s[0].id);
    } else {
      assert s[1..][k - 1] == s[k];
      RemoveIdMultiset(s[1..], k - 1);
      assert s[0].id != s[k].id;
    }
  }

  /** Removing an id that does not occur changes nothing. */
  lemma {:induction false} RemoveIdKeepsAll(s: seq<Lead>, id: int)
    requires !HasId(s, id)
    ensures RemoveId(s, id) == s
    decreases |s|
  {
    if |s| > 0 {
      assert s[0].id != id && !HasId(s[1..], id);
      RemoveIdKeepsAll(s[1..], id);
      assert RemoveId(s, id) == [s[0]] + RemoveId(s[1..], id);
      assert s == [s[0]] + s[1..];
    }
  }

  /** Removal by id distributes over concatenation: entries keep their
      relative order and nothing but the removed id is affected. */
  lemma {:induction false} RemoveIdConcat(a: seq<Lead>, b: seq<Lead>, id: int)
    ensures RemoveId(a + b, id) == RemoveId(a, id) + RemoveId(b, id)
    decreases |a|
  {
    if |a| == 0 {
      assert a + b == b;
    } else {
      assert (a + b)[1..] == a[1..] + b;
      RemoveIdConcat(a[1..], b, id);
    }
  }

  /** With distinct ids, removing the id of entry `k` cuts out exactly that
      entry: everything before and after it stays, in order. */
  lemma RemoveIdAt(s: seq<Lead>, k: nat)
    requires DistinctIds(s)
    requires k < |s|
    ensures RemoveId(s, s[k].id) == s[..k] + s[k + 1..]
  {
    OtherIdsAround(s, k);
    RemoveIdAtOnly(s, k);
  }

  /** Removing the id of entry `k`, when no other entry carries it, cuts out
      exactly that entry. */
  lemma RemoveIdAtOnly(s: seq<Lead>, k: nat)
    requires k < |s|
    requires !HasId(s[..k], s[k].id) && !HasId(s[k + 1..], s[k].id)
    ensures RemoveId(s, s[k].id) == s[..k] + s[k + 1..]
  {
    var id := s[k].id;
    assert RemoveId(s[k..], id) == s[k + 1..] by {
      assert s[k..][0].id == id;
      assert s[k..][1..] == s[k + 1..];
      RemoveIdKeepsAll(s[k + 1..], id);
    }
    RemoveIdKeepsAll(s[..k], id);
    RemoveIdConcat(s[..k], s[k..], id);
    assert s[..k] + s[k..] == s;
  }

  /** `RemoveIdAt` for every entry carrying the id. */
  lemma RemoveIdCutsOut(s: seq<Lead>, id: int)
    ensures DistinctIds(s) ==>
              forall k :: 0 <= k < |s| && s[k].id == id ==> RemoveId(s, id) == s[..k] + s[k + 1..]
  {
    if DistinctIds(s) {
      forall k | 0 <= k < |s| && s[k].id == id ensures RemoveId(s, id) == s[..k] + s[k + 1..] {
        RemoveIdAt(s, k);
      }
    }
  }

  /** With distinct ids, no entry before or after entry `k` carries its id. */
  lemma OtherIdsAround(s: seq<Lead>, k: nat)
    requires DistinctIds(s)
    requires k < |s|
    ensures !HasId(s[..k], s[k].id) && !HasId(s[k + 1..], s[k].id)
  {
    var before, after := s[..k], s[k + 1..];
    forall j | 0 <= j < |before| ensures before[j].id != s[k].id {
      assert before[j] == s[j];
    }
    forall j | 0 <= j < |after| ensures after[j].id != s[k].id {
      assert after[j] == s[k + 1 + j];
    }
  }

  /** The five sample records the screen lists (`fakeLeads`). */
  const FakeLeads: seq<Lead> := [
    Lead(1, "A4 PROMAQ LTDA", "comercial@a4promaq.com.br", "(41) 3679-1200",
         Coord(-25.32019, -49.05904), "Potencial", "Novo",
         "Av. João Scucato Coradin, 181 - Bairro A", None),
    Lead(2, "ACA INDÚSTRIA E COMÉRCIO DE PEÇAS LTDA", "adriano.silva@aca.ind.br", "(41) 3098-8686",
         Coord(-25.49121, -49.14888), "Qualificado", "Em Negociação",
         "Av. Thomaz Carmeliano de Miranda, 1142 - Bairro B", None),
    Lead(3, "ACESSORIOS BONELLI LTDA", "pedro@vendas.com", "(41) 3366-3787",
         Coord(-25.49628, -49.16592), "Potencial", "Novo",
         "Rua Menino Jesus, 315 - Bairro C", None),
    Lead(4, "AGISA CONTAINNERS LTDA", "agisa@agisa.com.br", "(41) 3555-3669",
         Coord(-25.436947, -49.247364), "Qualificado", "Fechado",
         "Rod. BR-277, 3000 - CIC", None),
    Lead(5, "ELETROPAR COMPONENTES LTDA", "vendas@eletropar.com.br", "(41) 3327-5522",
         Coord(-25.428995, -49.273251), "Qualificado", "Em Negociação",
         "Av. Sete de Setembro, 4550 - Batel", None)
  ]

  /** The sample records are numbered 1 to 5 in order and none is
      annotated. */
  lemma FakeLeadsNumbered()
    ensures |FakeLeads| == 5
    ensures forall i :: 0 <= i < |FakeLeads| ==> FakeLeads[i].id == i + 1 && FakeLeads[i].distancia.None?
  {
  }

  /** Records numbered 1, 2, 3, ... in order have pairwise distinct ids, and
      those ids are exactly 1 to the count. */
  lemma NumberedIds(s: seq<Lead>)
    requires forall i :: 0 <= i < |s| ==> s[i].id == i + 1
    ensures DistinctIds(s)
    ensures forall id :: id in IdSet(s) <==> 1 <= id <= |s|
  {
    forall id ensures id in IdSet(s) <==> 1 <= id <= |s| {
      if 1 <= id <= |s| {
        assert s[id - 1].id == id;
      }
    }
  }

  /** The sample records have pairwise distinct ids, namely 1 to 5. */
  lemma FakeLeadsWellFormed()
    ensures DistinctIds(FakeLeads)
    ensures forall id :: id in IdSet(FakeLeads) <==> 1 <= id <= 5
  {
    FakeLeadsNumbered();
    NumberedIds(FakeLeads);
  }
}

=== FILE: leads_dialog.dfy ===
/**
  The list dialog (`ModalLeads`): a local working copy of the selection,
  seeded once when the dialog mounts; every row tap toggles it and hands the
  whole copy to the screen.
 */
module LeadsDialog {
  import opened Leads
  import opened Selection

  datatype Dialog = Dialog(localSelection: seq<Lead>)

  /** What the dialog hands to its parent. */
  datatype Output =
    | Silent
    | SelectLead(selection: seq<Lead>)   // onSelectLead(updated)
    | Close                              // onClose()

  datatype Reaction = Reaction(dialog: Dialog, output: Output)

  /** The dialog as it mounts: `selectedLeads`, or empty when absent. */
  function Mount(selectedLeads: Option<seq<Lead>>): (d: Dialog)
    ensures selectedLeads.Some? ==> d.localSelection == selectedLeads.value
    ensures selectedLeads.None? ==> d.localSelection == []
  {
    Dialog(match selectedLeads case Some(s) => s case None => [])
  }

  /** `toggleSelect(lead)`: toggle in the local copy and, when the callback
      exists, hand the new copy to the screen. */
  function ToggleSelect(d: Dialog, lead: Lead, hasOnSelectLead: bool): (r: Reaction)
    ensures !HasId(d.localSelection, lead.id) ==> r.dialog.localSelection == d.localSelection + [lead]
    ensures HasId(d.localSelection, lead.id) ==>
              forall x :: x in r.dialog.localSelection <==> x in d.localSelection && x.id != lead.id
    ensures DistinctIds(d.localSelection) ==>
              forall k :: 0 <= k < |d.localSelection| && d.localSelection[k].id == lead.id ==>
                r.dialog.localSelection == d.localSelection[..k] + d.localSelection[k + 1..]
    ensures HasId(r.dialog.localSelection, lead.id) <==> !HasId(d.localSelection, lead.id)
    ensures DistinctIds(d.localSelection) ==> DistinctIds(r.dialog.localSelection)
    ensures hasOnSelectLead ==> r.output == SelectLead(r.dialog.localSelection)
    ensures !hasOnSelectLead ==> r.output == Silent
  {
    ToggleKeepsIdsDistinct(d.localSelection, lead);
    var updated := Toggle(d.localSelection, lead);
    Reaction(Dialog(updated), if hasOnSelectLead then SelectLead(updated) else Silent)
  }

  /** Two taps on a row that was not selected restore the local copy exactly. */
  lemma ToggleSelectTwiceRestores(d: Dialog, lead: Lead, hasOnSelectLead: bool)
    requires !HasId(d.localSelection, lead.id)
    ensures ToggleSelect(ToggleSelect(d, lead, hasOnSelectLead).dialog, lead, hasOnSelectLead).dialog == d
  {
    ToggleTwiceRestores(d.localSelection, lead);
  }

  /** "Fechar", the close icon, the overlay and the back button. */
  function PressClose(d: Dialog): (r: Reaction)
    ensures r.dialog == d
    ensures r.output == Close
  {
    Reaction(d, Close)
  }

  /** A row is shown selected when its id occurs in the local copy. */
  function IsSelected(d: Dialog, lead: Lead): (b: bool)
    ensures b <==> lead.id in IdSet(d.localSelection)
  {
    HasId(d.localSelection, lead.id)
  }
}

=== FILE: listing.dfy ===
/**
  The distance listings of the main screen: `handleLeadClick` annotates every
  lead with its distance from the device location and sorts ascending;
  `handleSelectRaio` does the same after keeping only the leads with
  `distancia <= raio`. The comparator `a.distancia - b.distancia` sorts by the
  annotated distance, which is the distance from the location to the lead's
  coordinate.
 */
module Listing {
  import opened Leads
  import opened StableSort

  /** `{...lead, distancia}`: the lead with its distance from `from`. */
  function WithDistance(lead: Lead, from: Coord, dist: Distance): Lead {
    lead.(distancia := Some(dist(from, lead.coord)))
  }

  /** Every lead annotated with its distance, in input order. */
  function Annotate(leads: seq<Lead>, from: Coord, dist: Distance): (r: seq<Lead>)
    ensures |r| == |leads|
    ensures forall i :: 0 <= i < |leads| ==> r[i] == WithDistance(leads[i], from, dist)
  {
    if |leads| == 0 then [] else [WithDistance(leads[0], from, dist)] + Annotate(leads[1..], from, dist)
  }

  /** The sort key: distance from the location. */
  function DistanceKey(from: Coord, dist: Distance): Lead -> real {
    (lead: Lead) => dist(from, lead.coord)
  }

  /** `lead.distancia <= raio`; an absent distance never passes. */
  predicate InRadius(lead: Lead, raio: real) {
    lead.distancia.Some? && lead.distancia.value <= raio
  }

  /** The leads within the radius, in their original order. */
  function KeepInRadius(s: seq<Lead>, raio: real): (r: seq<Lead>)
    ensures forall x :: x in r <==> x in s && InRadius(x, raio)
    ensures |r| <= |s|
  {
    if |s| == 0 then []
    else if InRadius(s[0], raio) then [s[0]] + KeepInRadius(s[1..], raio)
    else KeepInRadius(s[1..], raio)
  }

  /** Every entry carries its own distance from `from`. */
  ghost predicate Annotated(s: seq<Lead>, from: Coord, dist: Distance) {
    forall i :: 0 <= i < |s| ==> s[i].distancia == Some(dist(from, s[i].coord))
  }

  /** The list `handleLeadClick` shows. */
  function ByDistance(leads: seq<Lead>, from: Coord, dist: Distance): (r: seq<Lead>)
    ensures multiset(r) == multiset(Annotate(leads, from, dist))
    ensures |r| == |leads|
    ensures Annotated(r, from, dist)
    ensures SortedBy(r, DistanceKey(from, dist))
  {
    var r := InsertionSort(Annotate(leads, from, dist), DistanceKey(from, dist));
    AnnotatedPermutation(Annotate(leads, from, dist), r, from, dist);
    r
  }

  /** The list `handleSelectRaio` shows. */
  function WithinRadiusByDistance(leads: seq<Lead>, from: Coord, dist: Distance, raio: real): (r: seq<Lead>)
    ensures multiset(r) == multiset(KeepInRadius(Annotate(leads, from, dist), raio))
    ensures Annotated(r, from, dist)
    ensures SortedBy(r, DistanceKey(from, dist))
  {
    var kept := KeepInRadius(Annotate(leads, from, dist), raio);
    assert Annotated(kept, from, dist) by {
      forall i | 0 <= i < |kept| ensures kept[i].distancia == Some(dist(from, kept[i].coord)) {
        assert kept[i] in Annotate(leads, from, dist);
      }
    }
    var r := InsertionSort(kept, DistanceKey(from, dist));
    AnnotatedPermutation(kept, r, from, dist);
    r
  }

  /** `handleSelectRaio` shows exactly the annotated leads whose distance is
      at most the radius. */
  lemma WithinRadiusMembers(leads: seq<Lead>, from: Coord, dist: Distance, raio: real)
    ensures var r := WithinRadiusByDistance(leads, from, dist, raio);
            forall x :: x in r <==>
              (exists i :: 0 <= i < |leads| && x == WithDistance(leads[i], from, dist)) &&
              dist(from, x.coord) <= raio
  {
    var annotated := Annotate(leads, from, dist);
    var r := WithinRadiusByDistance(leads, from, dist, raio);
    forall x ensures x in r <==> x in annotated && InRadius(x, raio) {
      assert x in r <==> x in multiset(r);
      assert x in KeepInRadius(annotated, raio) <==> x in multiset(KeepInRadius(annotated, raio));
    }
    forall x | x in annotated
      ensures exists i :: 0 <= i < |leads| && x == WithDistance(leads[i], from, dist)
    {
      var i :| 0 <= i < |annotated| && annotated[i] == x;
    }
    forall i | 0 <= i < |leads| ensures WithDistance(leads[i], from, dist) in annotated {
      assert annotated[i] == WithDistance(leads[i], from, dist);
    }
  }

  /** A permutation of an annotated sequence is annotated. */
  lemma AnnotatedPermutation(s: seq<Lead>, r: seq<Lead>, from: Coord, dist: Distance)
    requires Annotated(s, from, dist)
    requires multiset(r) == multiset(s)
    ensures Annotated(r, from, dist)
  {
    forall i | 0 <= i < |r| ensures r[i].distancia == Some(dist(from, r[i].coord)) {
      assert r[i] in multiset(s);
      var j :| 0 <= j < |s| && s[j] == r[i];
    }
  }

  /** Annotations agree with the sort key, so sorting by key is sorting by
      `distancia`. */
  lemma SortedByAnnotation(r: seq<Lead>, from: Coord, dist: Distance)
    requires Annotated(r, from, dist)
    requires SortedBy(r, DistanceKey(from, dist))
    ensures forall i, j :: 0 <= i < j < |r| ==> r[i].distancia.value <= r[j].distancia.value
  {
  }

  /** Stable ties in `handleLeadClick`: the leads at any one distance appear
      in their input order. */
  lemma ByDistanceIsStable(leads: seq<Lead>, from: Coord, dist: Distance, d: real)
    ensures WithKey(ByDistance(leads, from, dist), DistanceKey(from, dist), d) ==
            WithKey(Annotate(leads, from, dist), DistanceKey(from, dist), d)
  {
    InsertionSortIsStable(Annotate(leads, from, dist), DistanceKey(from, dist), d);
  }

  /** Keeping the leads within the radius keeps every run of equal distance
      within the radius whole and in order, and drops every run beyond it. */
  lemma {:induction false} KeepInRadiusWithKey(s: seq<Lead>, from: Coord, dist: Distance, raio: real, d: real)
    requires Annotated(s, from, dist)
    ensures WithKey(KeepInRadius(s, raio), DistanceKey(from, dist), d) ==
            if d <= raio then WithKey(s, DistanceKey(from, dist), d) else []
    decreases |s|
  {
    if |s| > 0 {
      assert Annotated(s[1..], from, dist) by {
        forall i | 0 <= i < |s[1..]| ensures s[1..][i].distancia == Some(dist(from, s[1..][i].coord)) {
          assert s[1..][i] == s[i + 1];
        }
      }
      KeepInRadiusWithKey(s[1..], from, dist, raio, d);
      assert s[0].distancia == Some(dist(from, s[0].coord));
      if InRadius(s[0], raio) {
        assert ([s[0]] + KeepInRadius(s[1..], raio))[1..] == KeepInRadius(s[1..], raio);
      }
    }
  }

  /** Stable ties in `handleSelectRaio`: the leads at distance `d` appear in
      input order when `d <= raio`, and not at all otherwise. */
  lemma WithinRadiusIsStable(leads: seq<Lead>, from: Coord, dist: Distance, raio: real, d: real)
    ensures WithKey(WithinRadiusByDistance(leads, from, dist, raio), DistanceKey(from, dist), d) ==
            if d <= raio then WithKey(Annotate(leads, from, dist), DistanceKey(from, dist), d) else []
  {
    var kept := KeepInRadius(Annotate(leads, from, dist), raio);
    InsertionSortIsStable(kept, DistanceKey(from, dist), d);
    KeepInRadiusWithKey(Annotate(leads, from, dist), from, dist, raio, d);
  }

  /** With non-negative distances, a negative radius keeps nothing. */
  lemma NegativeRadiusKeepsNothing(leads: seq<Lead>, from: Coord, dist: Distance, raio: real)
    requires raio < 0.0
    requires forall i :: 0 <= i < |leads| ==> dist(from, leads[i].coord) >= 0.0
    ensures WithinRadiusByDistance(leads, from, dist, raio) == []
  {
    var annotated := Annotate(leads, from, dist);
    assert forall i :: 0 <= i < |annotated| ==> !InRadius(annotated[i], raio);
    KeepInRadiusNone(annotated, raio);
    var r := WithinRadiusByDistance(leads, from, dist, raio);
    assert |multiset(r)| == 0;
  }

  lemma {:induction false} KeepInRadiusNone(s: seq<Lead>, raio: real)
    requires forall i :: 0 <= i < |s| ==> !InRadius(s[i], raio)
    ensures KeepInRadius(s, raio) == []
    decreases |s|
  {
    if |s| > 0 {
      KeepInRadiusNone(s[1..], raio);
    }
  }
}

=== FILE: main_screen.dfy ===
/**
  The main screen's state and its handlers for listing, selecting and
  routing. Each handler is a function from the state before to the state
  after (React's `set…` calls taking effect together); modal visibility,
  alerts and opening URLs are not state here, the maps request is returned
  as a value instead.
 */
module MainScreen {
  import opened Leads
  import opened Selection
  import opened Listing
  import opened NearestNeighbour

  datatype Screen = Screen(
    location: Option<Coord>,        // device position, absent until acquired
    raioFiltro: Option<real>,       // radius picked in the route dialog
    leadsFiltrados: seq<Lead>,      // the listed leads, annotated and sorted
    leadsSelecionados: seq<Lead>,   // the shared selection
    rotaCoordenadas: seq<Coord>,    // the polyline drawn on the map
    leadSelecionado: Option<Lead>)  // the lead whose detail dialog is open

  /** The state when the screen mounts. */
  const Initial: Screen := Screen(None, None, [], [], [], None)

  /** `handleLeadClick`: list every lead by distance. */
  function HandleLeadClick(st: Screen, leads: seq<Lead>, dist: Distance): (r: Screen)
    ensures st.location.None? ==> r == st
    ensures st.location.Some? ==>
              && r == st.(leadsFiltrados := r.leadsFiltrados)
              && r.leadsFiltrados == ByDistance(leads, st.location.value, dist)
              && multiset(r.leadsFiltrados) == multiset(Annotate(leads, st.location.value, dist))
              && Annotated(r.leadsFiltrados, st.location.value, dist)
              && forall i, j :: 0 <= i < j < |r.leadsFiltrados| ==>
                   r.leadsFiltrados[i].distancia.value <= r.leadsFiltrados[j].distancia.value
  {
    match st.location
    case None => st
    case Some(here) =>
      var listed := ByDistance(leads, here, dist);
      SortedByAnnotation(listed, here, dist);
      st.(leadsFiltrados := listed)
  }

  /** `handleSelectRaio(raio)`: remember the radius and list the leads within
      it by distance. */
  function HandleSelectRaio(st: Screen, leads: seq<Lead>, raio: real, dist: Distance): (r: Screen)
    ensures st.location.None? ==> r == st
    ensures st.location.Some? ==>
              && r == st.(raioFiltro := Some(raio), leadsFiltrados := r.leadsFiltrados)
              && r.leadsFiltrados == WithinRadiusByDistance(leads, st.location.value, dist, raio)
              && multiset(r.leadsFiltrados) == multiset(KeepInRadius(Annotate(leads, st.location.value, dist), raio))
              && Annotated(r.leadsFiltrados, st.location.value, dist)
              && (forall i :: 0 <= i < |r.leadsFiltrados| ==> r.leadsFiltrados[i].distancia.value <= raio)
              && forall i, j :: 0 <= i < j < |r.leadsFiltrados| ==>
                   r.leadsFiltrados[i].distancia.value <= r.leadsFiltrados[j].distancia.value
  {
    match st.location
    case None => st
    case Some(here) =>
      var listed := WithinRadiusByDistance(leads, here, dist, raio);
      SortedByAnnotation(listed, here, dist);
      WithinRadiusMembers(leads, here, dist, raio);
      st.(raioFiltro := Some(raio), leadsFiltrados := listed)
  }

  /** `toggleSelecionarLead(lead)`, the row tap in the route dialog. */
  function ToggleSelecionarLead(st: Screen, lead: Lead): (r: Screen)
    ensures r == st.(leadsSelecionados := r.leadsSelecionados)
    ensures r.leadsSelecionados == Toggle(st.leadsSelecionados, lead)
    ensures HasId(r.leadsSelecionados, lead.id) <==> !HasId(st.leadsSelecionados, lead.id)
    ensures DistinctIds(st.leadsSelecionados) ==> DistinctIds(r.leadsSelecionados)
  {
    ToggleKeepsIdsDistinct(st.leadsSelecionados, lead);
    st.(leadsSelecionados := Toggle(st.leadsSelecionados, lead))
  }

  /** `handleMarkerPress(lead)`: the lead whose detail dialog opens. */
  function HandleMarkerPress(st: Screen, lead: Lead): (r: Screen)
    ensures r.leadSelecionado == Some(lead)
    ensures r == st.(leadSelecionado := r.leadSelecionado)
  {
    st.(leadSelecionado := Some(lead))
  }

  /** "Criar Rota" in the detail dialog: the selection becomes that one lead.
      The button is only rendered while a lead is shown. */
  function CreateSingleRoute(st: Screen): (r: Screen)
    ensures st.leadSelecionado.Some? ==> r.leadsSelecionados == [st.leadSelecionado.value]
    ensures st.leadSelecionado.None? ==> r == st
    ensures r == st.(leadsSelecionados := r.leadsSelecionados)
  {
    match st.leadSelecionado
    case None => st
    case Some(lead) => st.(leadsSelecionados := [lead])
  }

  /** `handleCancelarRota`: forget the selection and the drawn route. */
  function HandleCancelarRota(st: Screen): (r: Screen)
    ensures r.leadsSelecionados == [] && r.rotaCoordenadas == []
    ensures r == st.(leadsSelecionados := r.leadsSelecionados, rotaCoordenadas := r.rotaCoordenadas)
  {
    st.(leadsSelecionados := [], rotaCoordenadas := [])
  }

  /** The positions of the stops, in order. */
  function Coords(stops: seq<Lead>): (r: seq<Coord>)
    ensures |r| == |stops|
    ensures forall i :: 0 <= i < |stops| ==> r[i] == stops[i].coord
  {
    if |stops| == 0 then [] else [stops[0].coord] + Coords(stops[1..])
  }

  /** The directions request handed to the maps app: start, last stop, and
      the stops before it. Rendering the numbers into the URL is left out. */
  datatype MapsRequest = MapsRequest(origin: Coord, destination: Coord, waypoints: seq<Coord>)

  datatype RouteOutcome =
    | SelectAtLeastTwo            // the alert "Selecione pelo menos 2 empresas"
    | OpenMaps(request: MapsRequest)

  datatype Created = Created(screen: Screen, outcome: RouteOutcome)

  /** `handleCriarRotaMultipla`: with a location and at least two selected
      entries, order the selection greedily, draw it and ask the maps app for
      directions; otherwise only alert. */
  function HandleCriarRotaMultipla(st: Screen, dist: Distance): (r: Created)
    ensures st.location.None? || |st.leadsSelecionados| < 2 ==>
              r == Created(st, SelectAtLeastTwo)
    ensures st.location.Some? && |st.leadsSelecionados| >= 2 ==>
              var poly := r.screen.rotaCoordenadas;
              && r.screen == st.(rotaCoordenadas := poly)
              && r.outcome.OpenMaps?
              && |poly| >= 2
              && r.outcome.request.origin == poly[0] == st.location.value
              && r.outcome.request.destination == poly[|poly| - 1]
              && r.outcome.request.waypoints == poly[1..|poly| - 1]
  {
    if st.location.None? || |st.leadsSelecionados| < 2 then Created(st, SelectAtLeastTwo)
    else
      var here := st.location.value;
      var otimizados := Route(st.leadsSelecionados, here, dist);
      var coords := [here] + Coords(otimizados);
      var request := MapsRequest(
        here,
        otimizados[|otimizados| - 1].coord,
        Coords(otimizados[..|otimizados| - 1]));
      PolylineEnds(here, otimizados);
      Created(st.(rotaCoordenadas := coords), OpenMaps(request))
  }

  /** The polyline from `here` through `stops` starts at `here`, ends at the
      last stop, and passes through the other stops in between. */
  lemma PolylineEnds(here: Coord, stops: seq<Lead>)
    requires |stops| > 0
    ensures var poly := [here] + Coords(stops);
            && |poly| == |stops| + 1
            && poly[0] == here
            && poly[|poly| - 1] == stops[|stops| - 1].coord
            && poly[1..|poly| - 1] == Coords(stops[..|stops| - 1])
  {
    var poly := [here] + Coords(stops);
    assert poly[1..|poly| - 1] == Coords(stops[..|stops| - 1]);
  }

  /** What a created route draws and requests: the polyline is the location
      followed by every stop of the greedy order; the request ends at the last
      stop and passes through all the others in order; the stops are exactly
      the selected ids, each once. */
  lemma CreatedRouteFollowsGreedyOrder(st: Screen, dist: Distance)
    requires st.location.Some? && |st.leadsSelecionados| >= 2
    ensures var rota := Route(st.leadsSelecionados, st.location.value, dist);
            var r := HandleCriarRotaMultipla(st, dist);
            && |r.screen.rotaCoordenadas| == |rota| + 1
            && (forall i :: 0 <= i < |rota| ==> r.screen.rotaCoordenadas[i + 1] == rota[i].coord)
            && r.outcome.request.destination == rota[|rota| - 1].coord
            && r.outcome.request.waypoints == Coords(rota[..|rota| - 1])
            && IdSet(rota) == IdSet(st.leadsSelecionados)
            && DistinctIds(rota)
  {
    var rota := Route(st.leadsSelecionados, st.location.value, dist);
    assert IdSet(rota) == IdSet(st.leadsSelecionados) by {
      RouteIdSet(st.leadsSelecionados, st.location.value, dist);
    }
    assert DistinctIds(rota) by {
      RouteDistinctIds(st.leadsSelecionados, st.location.value, dist);
    }
  }

  /** "Criar Rota (n paradas)" and "Cancelar" are only rendered while more
      than one entry is selected. */
  predicate RouteButtonsShown(st: Screen) {
    |st.leadsSelecionados| > 1
  }
}

=== FILE: nearest_neighbour.dfy ===
/**
  The nearest-neighbour route builder of the main screen (`otimizarRota`):
  starting from the origin, repeatedly pick the remaining stop closest to the
  current position, drop every remaining entry with its id, and move there.

  The pick is `restantes.reduce((a, b) => da < db ? a : b)` with no initial
  value: the accumulator starts at the first entry and is replaced by every
  later entry that is not strictly farther. Among equal minima the LAST one
  in `restantes` therefore wins.
 */
module NearestNeighbour {
  import opened Leads

  /** `s[k]` is at minimal distance from `from`, and every later entry is
      strictly farther: the entry the reduction picks. */
  ghost predicate IsLastNearest(s: seq<Lead>, from: Coord, dist: Distance, k: int) {
    && 0 <= k < |s|
    && (forall j :: 0 <= j < |s| ==> dist(from, s[k].coord) <= dist(from, s[j].coord))
    && (forall j :: k < j < |s| ==> dist(from, s[k].coord) < dist(from, s[j].coord))
  }

  /** Index of the entry the left-to-right reduction with `da < db ? a : b`
      returns; the reduction is unfolded over ever longer prefixes. */
  function ReduceNearest(s: seq<Lead>, from: Coord, dist: Distance): (k: nat)
    requires |s| > 0
    ensures k < |s|
    decreases |s|
  {
    if |s| == 1 then 0
    else
      var acc := ReduceNearest(s[..|s| - 1], from, dist);
      if dist(from, s[acc].coord) < dist(from, s[|s| - 1].coord) then acc else |s| - 1
  }

  /** The reduction returns the last of the nearest entries. */
  lemma {:induction false} ReduceNearestIsLastNearest(s: seq<Lead>, from: Coord, dist: Distance)
    requires |s| > 0
    ensures IsLastNearest(s, from, dist, ReduceNearest(s, from, dist))
    decreases |s|
  {
    if |s| > 1 {
      var prefix := s[..|s| - 1];
      ReduceNearestIsLastNearest(prefix, from, dist);
      assert forall j :: 0 <= j < |prefix| ==> prefix[j] == s[j];
    }
  }

  /** At most one index satisfies the pick condition, so the tie-break is
      fully determined. */
  lemma LastNearestIsUnique(s: seq<Lead>, from: Coord, dist: Distance, k: int, k': int)
    requires IsLastNearest(s, from, dist, k)
    requires IsLastNearest(s, from, dist, k')
    ensures k == k'
  {
    assert dist(from, s[k].coord) == dist(from, s[k'].coord);
  }

  /** The route: greedy walk over `rest` starting at `from`. It is empty
      exactly when there is nothing to visit and never longer than `rest`;
      which stop comes when is stated by `RouteIsGreedy` and `GreedyIffRoute`. */
  function Route(rest: seq<Lead>, from: Coord, dist: Distance): (r: seq<Lead>)
    ensures r == [] <==> |rest| == 0
    ensures |r| <= |rest|
    decreases |rest|
  {
    if |rest| == 0 then []
    else
      var k := ReduceNearest(rest, from, dist);
      var stop := rest[k];
      assert HasId(rest, stop.id);
      [stop] + Route(RemoveId(rest, stop.id), stop.coord, dist)
  }

  /** `otimizarRota(pontos, origem)` as the source writes it: a loop that
      shrinks `restantes` by at least the picked stop on every iteration. */
  method OtimizarRota(pontos: seq<Lead>, origem: Coord, dist: Distance) returns (rota: seq<Lead>)
    ensures rota == Route(pontos, origem, dist)
    ensures IdSet(rota) == IdSet(pontos)
    ensures DistinctIds(rota)
    ensures DistinctIds(pontos) ==> multiset(rota) == multiset(pontos)
  {
    var restantes := pontos;
    rota := [];
    var atual := origem;
    while |restantes| > 0
      invariant rota + Route(restantes, atual, dist) == Route(pontos, origem, dist)
      decreases |restantes|
    {
      var maisProximo := restantes[ReduceNearest(restantes, atual, dist)];
      RouteAppendStep(rota, restantes, atual, dist);
      rota := rota + [maisProximo];
      restantes := RemoveId(restantes, maisProximo.id);
      atual := maisProximo.coord;
    }
    RouteFacts(pontos, origem, dist);
  }

  /** One iteration of the loop moves the picked stop from the front of the
      walk still to go to the end of the walk done, and shrinks what is left. */
  lemma RouteAppendStep(done: seq<Lead>, rest: seq<Lead>, from: Coord, dist: Distance)
    requires |rest| > 0
    ensures var stop := rest[ReduceNearest(rest, from, dist)];
            var next := RemoveId(rest, stop.id);
            && |next| < |rest|
            && done + Route(rest, from, dist) == (done + [stop]) + Route(next, stop.coord, dist)
  {
    var stop := rest[ReduceNearest(rest, from, dist)];
    var next := RemoveId(rest, stop.id);
    var tail := Route(next, stop.coord, dist);
    assert |next| < |rest| && Route(rest, from, dist) == [stop] + tail by { RouteUnfold(rest, from, dist); }
    AppendAssoc(done, stop, tail);
  }

  lemma AppendAssoc(done: seq<Lead>, stop: Lead, tail: seq<Lead>)
    ensures done + ([stop] + tail) == (done + [stop]) + tail
  {
  }

  /** What the route is, as a collection: the input's ids, each once, and,
      when the input's ids are distinct, exactly the input's entries. */
  lemma RouteFacts(pontos: seq<Lead>, origem: Coord, dist: Distance)
    ensures IdSet(Route(pontos, origem, dist)) == IdSet(pontos)
    ensures DistinctIds(Route(pontos, origem, dist))
    ensures DistinctIds(pontos) ==> multiset(Route(pontos, origem, dist)) == multiset(pontos)
  {
    RouteIdSet(pontos, origem, dist);
    RouteDistinctIds(pontos, origem, dist);
    if DistinctIds(pontos) {
      RoutePermutation(pontos, origem, dist);
    }
  }

  /** The route visits exactly the ids of its input. */
  lemma {:induction false} RouteIdSet(rest: seq<Lead>, from: Coord, dist: Distance)
    ensures IdSet(Route(rest, from, dist)) == IdSet(rest)
    decreases |rest|
  {
    if |rest| > 0 {
      var stop := rest[ReduceNearest(rest, from, dist)];
      var next := RemoveId(rest, stop.id);
      var tail := Route(next, stop.coord, dist);
      assert |next| < |rest| by { assert HasId(rest, stop.id); }
      RouteIdSet(next, stop.coord, dist);
      RemoveIdIds(rest, stop.id);
      assert Route(rest, from, dist) == [stop] + tail;
      assert ([stop] + tail)[1..] == tail;
      assert stop.id in IdSet(rest) by { assert HasId(rest, stop.id); }
    }
  }

  /** The route never visits an id twice. */
  lemma {:induction false} RouteDistinctIds(rest: seq<Lead>, from: Coord, dist: Distance)
    ensures DistinctIds(Route(rest, from, dist))
    decreases |rest|
  {
    if |rest| > 0 {
      var stop := rest[ReduceNearest(rest, from, dist)];
      var next := RemoveId(rest, stop.id);
      var tail := Route(next, stop.coord, dist);
      assert |next| < |rest| by { assert HasId(rest, stop.id); }
      RouteDistinctIds(next, stop.coord, dist);
      RouteIdSet(next, stop.coord, dist);
      RemoveIdIds(rest, stop.id);
      DistinctIdsCons(stop, tail);
      assert Route(rest, from, dist) == [stop] + tail;
    }
  }

  /** When the input ids are pairwise distinct the route is a permutation of
      the input (in particular, empty in gives empty out). */
  lemma {:induction false} RoutePermutation(rest: seq<Lead>, from: Coord, dist: Distance)
    requires DistinctIds(rest)
    ensures multiset(Route(rest, from, dist)) == multiset(rest)
    ensures |Route(rest, from, dist)| == |rest|
    decreases |rest|
  {
    if |rest| > 0 {
      var k := ReduceNearest(rest, from, dist);
      var stop := rest[k];
      var next := RemoveId(rest, stop.id);
      var tail := Route(next, stop.coord, dist);
      assert Route(rest, from, dist) == [stop] + tail by { RouteUnfold(rest, from, dist); }
      assert DistinctIds(next) by { RemoveIdDistinct(rest, stop.id); }
      assert multiset(next) == multiset(rest) - multiset{stop} by { RemoveIdMultiset(rest, k); }
      RoutePermutation(next, stop.coord, dist);
      assert multiset([stop] + tail) == multiset{stop} + multiset(next);
      assert stop in multiset(rest);
      assert |multiset(next)| == |multiset(rest)| - 1;
    }
  }

  /** Every entry of `s` whose id is not in `ids`, in order: what is left of
      `restantes` once the stops with those ids have been visited. */
  function RemoveIds(s: seq<Lead>, ids: set<int>): (r: seq<Lead>)
    ensures forall x :: x in r <==> x in s && x.id !in ids
  {
    if |s| == 0 then []
    else if s[0].id in ids then RemoveIds(s[1..], ids)
    else [s[0]] + RemoveIds(s[1..], ids)
  }

  lemma {:induction false} RemoveIdsNone(s: seq<Lead>)
    ensures RemoveIds(s, {}) == s
    decreases |s|
  {
    if |s| > 0 {
      RemoveIdsNone(s[1..]);
      assert s == [s[0]] + s[1..];
    }
  }

  /** Removing one id and then a set of ids is removing their union. */
  lemma {:induction false} RemoveIdsThenId(s: seq<Lead>, id: int, ids: set<int>)
    ensures RemoveIds(RemoveId(s, id), ids) == RemoveIds(s, {id} + ids)
    decreases |s|
  {
    if |s| > 0 {
      RemoveIdsThenId(s[1..], id, ids);
    }
  }

  /** Where the walk stands before choosing stop `i`: the origin, then the
      previous stop. */
  function Position(origem: Coord, rota: seq<Lead>, i: nat): Coord
    requires i <= |rota|
  {
    if i == 0 then origem else rota[i - 1].coord
  }

  /** One step of the walk: the picked stop, then the walk over what is left
      from the picked stop's position. */
  lemma RouteUnfold(rest: seq<Lead>, from: Coord, dist: Distance)
    requires |rest| > 0
    ensures var stop := rest[ReduceNearest(rest, from, dist)];
            var next := RemoveId(rest, stop.id);
            && |next| < |rest|
            && Route(rest, from, dist) == [stop] + Route(next, stop.coord, dist)
  {
    assert HasId(rest, rest[ReduceNearest(rest, from, dist)].id);
  }

  /** `rota` is the greedy walk over `rest` from `from`: its first stop is
      the reduction's pick, and the rest of it is the walk over what is left
      from that stop. */
  ghost predicate IsWalk(rest: seq<Lead>, from: Coord, dist: Distance, rota: seq<Lead>)
    decreases |rest|
  {
    if |rest| == 0 then rota == []
    else
      && |rota| > 0
      && rota[0] == rest[ReduceNearest(rest, from, dist)]
      && (assert HasId(rest, rota[0].id);
          IsWalk(RemoveId(rest, rota[0].id), rota[0].coord, dist, rota[1..]))
  }

  /** The route is such a walk ... */
  lemma {:induction false} RouteIsWalk(rest: seq<Lead>, from: Coord, dist: Distance)
    ensures IsWalk(rest, from, dist, Route(rest, from, dist))
    decreases |rest|
  {
    if |rest| > 0 {
      RouteUnfold(rest, from, dist);
      var stop := rest[ReduceNearest(rest, from, dist)];
      RouteIsWalk(RemoveId(rest, stop.id), stop.coord, dist);
    }
  }

  /** ... and the only one: the greedy walk is fully determined by its input,
      its origin and the distance. */
  lemma {:induction false} WalkIsRoute(rest: seq<Lead>, from: Coord, dist: Distance, rota: seq<Lead>)
    requires IsWalk(rest, from, dist, rota)
    ensures rota == Route(rest, from, dist)
    decreases |rest|
  {
    if |rest| > 0 {
      var stop := rota[0];
      assert HasId(rest, stop.id);
      var next := RemoveId(rest, stop.id);
      WalkIsRoute(next, stop.coord, dist, rota[1..]);
      RouteUnfold(rest, from, dist);
      assert rota == [stop] + rota[1..];
    }
  }

  /** The first step of a walk, named. */
  lemma WalkStep(rest: seq<Lead>, from: Coord, dist: Distance, rota: seq<Lead>) returns (stop: Lead, next: seq<Lead>)
    requires IsWalk(rest, from, dist, rota) && |rest| > 0
    ensures |rota| > 0 && stop == rota[0] == rest[ReduceNearest(rest, from, dist)]
    ensures next == RemoveId(rest, stop.id) && |next| < |rest|
    ensures IsWalk(next, stop.coord, dist, rota[1..])
  {
    stop := rota[0];
    assert HasId(rest, stop.id);
    next := RemoveId(rest, stop.id);
  }

  /** Step `i` of `rota` picks, from what is left of `pontos` once the
      earlier stops' ids are gone, the entry the reduction picks when measured
      from the current position. */
  ghost predicate GreedyAt(pontos: seq<Lead>, origem: Coord, dist: Distance, rota: seq<Lead>, i: nat)
    requires i < |rota|
  {
    exists k :: PickedAt(pontos, origem, dist, rota, i, k)
  }

  /** Step `i` of `rota` is entry `k` of what is left, and the reduction picks
      that entry. */
  ghost predicate PickedAt(pontos: seq<Lead>, origem: Coord, dist: Distance, rota: seq<Lead>, i: nat, k: int)
    requires i < |rota|
  {
    var restantes := RemoveIds(pontos, IdSet(rota[..i]));
    && 0 <= k < |restantes|
    && restantes[k] == rota[i]
    && IsLastNearest(restantes, Position(origem, rota, i), dist, k)
  }

  /** The first stop of a walk is the reduction's pick over the whole input,
      measured from the origin. */
  lemma WalkFirstPick(pontos: seq<Lead>, origem: Coord, dist: Distance, rota: seq<Lead>) returns (k: int)
    requires IsWalk(pontos, origem, dist, rota) && |rota| > 0
    ensures PickedAt(pontos, origem, dist, rota, 0, k)
  {
    assert |pontos| > 0;
    k := ReduceNearest(pontos, origem, dist);
    ReduceNearestIsLastNearest(pontos, origem, dist);
    assert rota[..0] == [];
    assert IdSet(rota[..0]) == {};
    RemoveIdsNone(pontos);
  }

  /** Seen from its second stop, a walk is one position shorter: step `i`
      becomes step `i - 1`, and the first stop joins the visited ones. */
  lemma TailPositions(stop: Lead, rota: seq<Lead>, i: nat)
    requires 0 < i < |rota| && stop == rota[0]
    ensures rota[i] == rota[1..][i - 1]
    ensures Position(stop.coord, rota[1..], i - 1) == Position(stop.coord, rota, i)
    ensures IdSet(rota[..i]) == {stop.id} + IdSet(rota[1..][..i - 1])
  {
    assert rota[..i] == [stop] + rota[1..][..i - 1];
    IdSetCons(stop, rota[1..][..i - 1]);
  }

  /** The index, in what is left, of the stop a walk takes at step `i`. */
  lemma {:induction false} WalkPick(pontos: seq<Lead>, origem: Coord, dist: Distance, rota: seq<Lead>, i: nat) returns (k: int)
    requires IsWalk(pontos, origem, dist, rota) && i < |rota|
    ensures PickedAt(pontos, origem, dist, rota, i, k)
    decreases |pontos|
  {
    if i == 0 {
      k := WalkFirstPick(pontos, origem, dist, rota);
    } else {
      assert |pontos| > 0;
      var stop, next := WalkStep(pontos, origem, dist, rota);
      k := WalkPick(next, stop.coord, dist, rota[1..], i - 1);
      TailPositions(stop, rota, i);
      RemoveIdsThenId(pontos, stop.id, IdSet(rota[1..][..i - 1]));
    }
  }

  /** Every step of the route is greedy: step `i` chooses, from the stops not
      yet visited (in input order) and measured from the current position, a
      nearest one, and the last among equally near ones. */
  lemma RouteIsGreedy(pontos: seq<Lead>, origem: Coord, dist: Distance, i: nat)
    requires i < |Route(pontos, origem, dist)|
    ensures GreedyAt(pontos, origem, dist, Route(pontos, origem, dist), i)
  {
    RouteIsWalk(pontos, origem, dist);
    var k := WalkPick(pontos, origem, dist, Route(pontos, origem, dist), i);
  }

  /** Greedy minimality in its plain form: the stop chosen at step `i` is at
      least as close to the current position as every stop of the input not
      visited before step `i`. */
  lemma RouteStepIsNearest(pontos: seq<Lead>, origem: Coord, dist: Distance, i: nat, p: Lead)
    requires p in pontos
    ensures var rota := Route(pontos, origem, dist);
            i < |rota| && p.id !in IdSet(rota[..i]) ==>
              dist(Position(origem, rota, i), rota[i].coord) <= dist(Position(origem, rota, i), p.coord)
  {
    var rota := Route(pontos, origem, dist);
    if i < |rota| && p.id !in IdSet(rota[..i]) {
      RouteIsWalk(pontos, origem, dist);
      var k := WalkPick(pontos, origem, dist, rota, i);
      PickIsNearest(pontos, origem, dist, rota, i, k, p);
    }
  }

  /** A picked stop is at least as near as any entry not yet visited. */
  lemma PickIsNearest(pontos: seq<Lead>, origem: Coord, dist: Distance, rota: seq<Lead>, i: nat, k: int, p: Lead)
    requires i < |rota|
    requires PickedAt(pontos, origem, dist, rota, i, k)
    requires p in pontos
    requires p.id !in IdSet(rota[..i])
    ensures dist(Position(origem, rota, i), rota[i].coord) <= dist(Position(origem, rota, i), p.coord)
  {
    var restantes := RemoveIds(pontos, IdSet(rota[..i]));
    assert p in restantes;
    var j :| 0 <= j < |restantes| && restantes[j] == p;
  }

  /** The converse of `RouteIsGreedy`, with the loop's exit condition
      `restantes.length > 0`: a sequence is the route exactly when each of its
      steps is the greedy pick and, once it ends, no entry of the input is
      left unvisited. */
  lemma GreedyIffRoute(pontos: seq<Lead>, origem: Coord, dist: Distance, rota: seq<Lead>)
    ensures rota == Route(pontos, origem, dist) <==>
              && (forall i :: 0 <= i < |rota| ==> GreedyAt(pontos, origem, dist, rota, i))
              && RemoveIds(pontos, IdSet(rota)) == []
  {
    if rota == Route(pontos, origem, dist) {
      forall i | 0 <= i < |rota| ensures GreedyAt(pontos, origem, dist, rota, i) {
        RouteIsGreedy(pontos, origem, dist, i);
      }
      RouteIdSet(pontos, origem, dist);
      RemoveIdsAll(pontos, IdSet(rota));
    }
    if && (forall i :: 0 <= i < |rota| ==> GreedyAt(pontos, origem, dist, rota, i))
       && RemoveIds(pontos, IdSet(rota)) == []
    {
      GreedyIsWalk(pontos, origem, dist, rota);
      WalkIsRoute(pontos, origem, dist, rota);
    }
  }

  /** Removing a superset of the ids present leaves nothing. */
  lemma RemoveIdsAll(s: seq<Lead>, ids: set<int>)
    requires IdSet(s) <= ids
    ensures RemoveIds(s, ids) == []
  {
    forall x | x in s ensures x.id in ids {
      var j :| 0 <= j < |s| && s[j] == x;
      assert HasId(s, s[j].id);
    }
  }

  /** The first greedy step is the reduction's pick over the whole input. */
  lemma GreedyFirstPick(pontos: seq<Lead>, origem: Coord, dist: Distance, rota: seq<Lead>)
    requires 0 < |rota|
    ensures GreedyAt(pontos, origem, dist, rota, 0) ==>
              |pontos| > 0 && rota[0] == pontos[ReduceNearest(pontos, origem, dist)]
  {
    if GreedyAt(pontos, origem, dist, rota, 0) {
      var k :| PickedAt(pontos, origem, dist, rota, 0, k);
      assert RemoveIds(pontos, IdSet(rota[..0])) == pontos by {
        assert rota[..0] == [];
        RemoveIdsNone(pontos);
      }
      ReduceNearestIsLastNearest(pontos, origem, dist);
      LastNearestIsUnique(pontos, origem, dist, k, ReduceNearest(pontos, origem, dist));
    }
  }

  /** The later greedy steps are the greedy steps of the tail over what is
      left once the first stop's id is gone. */
  lemma GreedyTail(pontos: seq<Lead>, origem: Coord, dist: Distance, rota: seq<Lead>)
    requires 0 < |rota|
    ensures (forall i :: 0 <= i < |rota| ==> GreedyAt(pontos, origem, dist, rota, i)) ==>
              forall i :: 0 <= i < |rota[1..]| ==>
                GreedyAt(RemoveId(pontos, rota[0].id), rota[0].coord, dist, rota[1..], i)
  {
    if forall i :: 0 <= i < |rota| ==> GreedyAt(pontos, origem, dist, rota, i) {
      var next := RemoveId(pontos, rota[0].id);
      forall i | 0 <= i < |rota[1..]| ensures GreedyAt(next, rota[0].coord, dist, rota[1..], i) {
        assert GreedyAt(pontos, origem, dist, rota, i + 1);
        var k :| PickedAt(pontos, origem, dist, rota, i + 1, k);
        PickedAtShift(pontos, origem, dist, rota, i + 1, k);
      }
    }
  }

  /** What the tail leaves of the rest is what the whole leaves of the input. */
  lemma TailLeaves(pontos: seq<Lead>, rota: seq<Lead>)
    requires 0 < |rota|
    ensures RemoveIds(RemoveId(pontos, rota[0].id), IdSet(rota[1..])) == RemoveIds(pontos, IdSet(rota))
  {
    RemoveIdsThenId(pontos, rota[0].id, IdSet(rota[1..]));
    assert rota == [rota[0]] + rota[1..];
    IdSetCons(rota[0], rota[1..]);
  }

  /** Greedy picks at every step, until nothing is left, form a walk. */
  lemma {:induction false} GreedyIsWalk(pontos: seq<Lead>, origem: Coord, dist: Distance, rota: seq<Lead>)
    ensures (forall i :: 0 <= i < |rota| ==> GreedyAt(pontos, origem, dist, rota, i)) &&
            RemoveIds(pontos, IdSet(rota)) == [] ==>
              IsWalk(pontos, origem, dist, rota)
    decreases |pontos|
  {
    if && (forall i :: 0 <= i < |rota| ==> GreedyAt(pontos, origem, dist, rota, i))
       && RemoveIds(pontos, IdSet(rota)) == []
    {
      if |rota| == 0 {
        assert IdSet(rota) == {};
        RemoveIdsNone(pontos);
      } else {
        GreedyFirstPick(pontos, origem, dist, rota);
        var stop := rota[0];
        assert HasId(pontos, stop.id);
        var next := RemoveId(pontos, stop.id);
        GreedyTail(pontos, origem, dist, rota);
        TailLeaves(pontos, rota);
        GreedyIsWalk(next, stop.coord, dist, rota[1..]);
      }
    }
  }

  /** Seen from its second stop, step `i` of `rota` over `pontos` is step
      `i - 1` of `rota[1..]` over what is left once the first stop's id is
      gone. */
  lemma PickedAtShift(pontos: seq<Lead>, origem: Coord, dist: Distance, rota: seq<Lead>, i: nat, k: int)
    requires 0 < i < |rota|
    ensures PickedAt(pontos, origem, dist, rota, i, k) <==>
              PickedAt(RemoveId(pontos, rota[0].id), rota[0].coord, dist, rota[1..], i - 1, k)
  {
    TailPositions(rota[0], rota, i);
    RemoveIdsThenId(pontos, rota[0].id, IdSet(rota[1..][..i - 1]));
  }
}

=== FILE: selection.dfy ===
/**
  The toggle rule that the main screen, the filter dialog and the list dialog
  all apply to a selection sequence: when some entry already carries the
  lead's `id`, every entry with that id is filtered out; otherwise the lead is
  appended at the end.
 */
module Selection {
  import opened Leads

  function Toggle(sel: seq<Lead>, lead: Lead): (r: seq<Lead>)
    // an absent id is appended at the end, everything before it kept in order
    ensures !HasId(sel, lead.id) ==> r == sel + [lead]
    // a present id disappears entirely and every entry with another id stays
    ensures HasId(sel, lead.id) ==>
              !HasId(r, lead.id) && |r| < |sel| &&
              forall x :: x in r <==> x in sel && x.id != lead.id
    // with distinct ids, a present id is cut out of its position and the
    // entries before and after it stay, in order
    ensures DistinctIds(sel) ==>
              forall k :: 0 <= k < |sel| && sel[k].id == lead.id ==> r == sel[..k] + sel[k + 1..]
    // membership of the toggled id flips; every other id keeps its membership
    ensures HasId(r, lead.id) <==> !HasId(sel, lead.id)
    ensures forall id :: id != lead.id ==> (HasId(r, id) <==> HasId(sel, id))
  {
    HasIdAppend(sel, lead);
    RemoveIdCutsOut(sel, lead.id);
    if HasId(sel, lead.id) then RemoveId(sel, lead.id) else sel + [lead]
  }

  /** Toggling keeps the entries' ids pairwise distinct. */
  lemma ToggleKeepsIdsDistinct(sel: seq<Lead>, lead: Lead)
    ensures DistinctIds(sel) ==> DistinctIds(Toggle(sel, lead))
  {
    if !DistinctIds(sel) {
    } else if HasId(sel, lead.id) {
      RemoveIdDistinct(sel, lead.id);
    } else {
      var r := sel + [lead];
      forall i, j | 0 <= i < j < |r| ensures r[i].id != r[j].id {
        if j == |sel| {
          assert r[i] == sel[i];
        }
      }
    }
  }

  /** Toggling a lead whose id is absent, and then toggling it again,
      restores the exact original sequence. */
  lemma {:induction false} ToggleTwiceRestores(sel: seq<Lead>, lead: Lead)
    requires !HasId(sel, lead.id)
    ensures Toggle(Toggle(sel, lead), lead) == sel
  {
    assert HasId(sel + [lead], lead.id) by {
      assert (sel + [lead])[|sel|] == lead;
    }
    RemoveIdConcat(sel, [lead], lead.id);
    RemoveIdKeepsAll(sel, lead.id);
    assert RemoveId([lead], lead.id) == [];
  }

  /** Two toggles of the same lead always restore the set of selected ids;
      when the id was present, the lead ends up re-appended at the end. */
  lemma ToggleTwiceRestoresIds(sel: seq<Lead>, lead: Lead)
    ensures IdSet(Toggle(Toggle(sel, lead), lead)) == IdSet(sel)
    ensures HasId(sel, lead.id) ==>
              Toggle(Toggle(sel, lead), lead) == RemoveId(sel, lead.id) + [lead]
  {
    if !HasId(sel, lead.id) {
      ToggleTwiceRestores(sel, lead);
    } else {
      var once := RemoveId(sel, lead.id);
      assert Toggle(sel, lead) == once;
      assert !HasId(once, lead.id);
      assert Toggle(once, lead) == once + [lead];
      RemoveIdIds(sel, lead.id);
      IdSetAppend(once, lead);
    }
  }

  /** Selecting lead 3, then lead 5, then toggling lead 3 again leaves only
      lead 5 selected. */
  lemma SelectThreeFiveThenDeselectThree()
    ensures Toggle(Toggle(Toggle([], FakeLeads[2]), FakeLeads[4]), FakeLeads[2]) == [FakeLeads[4]]
  {
    var three := FakeLeads[2];
    var five := FakeLeads[4];
    assert Toggle([], three) == [three];
    assert !HasId([three], five.id);
    assert Toggle([three], five) == [three, five];
    assert HasId([three, five], three.id);
    assert RemoveId([five], three.id) == [five];
  }
}

=== FILE: stable_sort.dfy ===
/**
  A stable sort keyed on a real number, the behaviour `Array.prototype.sort`
  must have (ECMA-262 10th edition, section 22.1.3.27, requires stability) for
  a comparator `(a, b) => key(a) - key(b)`. It is written as an insertion
  sort: each element is placed in front of the first already-sorted element
  whose key is not smaller, so an element never overtakes an earlier one with
  an equal key.
 */
module StableSort {

  ghost predicate SortedBy<T>(s: seq<T>, key: T -> real) {
    forall i, j :: 0 <= i < j < |s| ==> key(s[i]) <= key(s[j])
  }

  /** The elements of `s` whose key is `k`, in their order in `s`. */
  function WithKey<T>(s: seq<T>, key: T -> real, k: real): (r: seq<T>)
    ensures forall i :: 0 <= i < |r| ==> key(r[i]) == k
  {
    if |s| == 0 then []
    else if key(s[0]) == k then [s[0]] + WithKey(s[1..], key, k)
    else WithKey(s[1..], key, k)
  }

  /** `x` placed in front of the first element of `s` whose key is at least
      `key(x)`. */
  function Insert<T>(x: T, s: seq<T>, key: T -> real): (r: seq<T>)
    requires SortedBy(s, key)
    ensures SortedBy(r, key)
    ensures multiset(r) == multiset(s) + multiset{x}
    ensures |r| == |s| + 1
  {
    if |s| == 0 || key(x) <= key(s[0]) then [x] + s
    else
      var tail := Insert(x, s[1..], key);
      HeadBelowInserted(x, s, tail, key);
      assert s == [s[0]] + s[1..];
      [s[0]] + tail
  }

  /** The head of a sorted `s` is a lower bound of `s[1..]` with a larger
      element added. */
  lemma HeadBelowInserted<T>(x: T, s: seq<T>, tail: seq<T>, key: T -> real)
    requires SortedBy(s, key) && |s| > 0 && key(s[0]) < key(x)
    requires multiset(tail) == multiset(s[1..]) + multiset{x}
    requires SortedBy(tail, key)
    ensures SortedBy([s[0]] + tail, key)
  {
    forall y | y in multiset(tail) ensures key(s[0]) <= key(y) {
      if y != x {
        assert y in multiset(s[1..]);
        var j :| 0 <= j < |s[1..]| && s[1..][j] == y;
        assert s[j + 1] == y;
      }
    }
    assert forall j :: 0 <= j < |tail| ==> tail[j] in multiset(tail);
  }

  function InsertionSort<T>(s: seq<T>, key: T -> real): (r: seq<T>)
    ensures SortedBy(r, key)
    ensures multiset(r) == multiset(s)
    ensures |r| == |s|
  {
    if |s| == 0 then []
    else
      assert s == [s[0]] + s[1..];
      Insert(s[0], InsertionSort(s[1..], key), key)
  }

  /** Inserting `x` puts it in front of every element that has its key. */
  lemma {:induction false} InsertWithKey<T>(x: T, s: seq<T>, key: T -> real, k: real)
    requires SortedBy(s, key)
    ensures WithKey(Insert(x, s, key), key, k) ==
            (if key(x) == k then [x] + WithKey(s, key, k) else WithKey(s, key, k))
    decreases |s|
  {
    if |s| == 0 || key(x) <= key(s[0]) {
      assert ([x] + s)[1..] == s;
    } else {
      var tail := Insert(x, s[1..], key);
      InsertWithKey(x, s[1..], key, k);
      assert ([s[0]] + tail)[1..] == tail;
    }
  }

  /** Stability: for every key value, the elements carrying it appear in the
      output in exactly their input order. */
  lemma {:induction false} InsertionSortIsStable<T>(s: seq<T>, key: T -> real, k: real)
    ensures WithKey(InsertionSort(s, key), key, k) == WithKey(s, key, k)
    decreases |s|
  {
    if |s| > 0 {
      InsertionSortIsStable(s[1..], key, k);
      InsertWithKey(s[0], InsertionSort(s[1..], key), key, k);
    }
  }

  /** A stable sort is unique: two sequences that are both sorted by `key` and
      agree on every key's subsequence are equal. */
  lemma {:induction false} SortedWithSameKeyRunsAreEqual<T>(a: seq<T>, b: seq<T>, key: T -> real)
    requires SortedBy(a, key) && SortedBy(b, key)
    requires forall k :: WithKey(a, key, k) == WithKey(b, key, k)
    ensures a == b
    decreases |a| + |b|
  {
    if |a| == 0 || |b| == 0 {
      WithKeyOfHead(a, key);
      WithKeyOfHead(b, key);
    } else {
      MinKeyRunHead(a, b, key);
      assert a[0] == b[0];
      forall k ensures WithKey(a[1..], key, k) == WithKey(b[1..], key, k) {
        assert WithKey(a, key, k) == WithKey(b, key, k);
        if key(a[0]) == k {
          assert WithKey(a[1..], key, k) == WithKey(a, key, k)[1..];
          assert WithKey(b[1..], key, k) == WithKey(b, key, k)[1..];
        }
      }
      SortedTail(a, key);
      SortedTail(b, key);
      SortedWithSameKeyRunsAreEqual(a[1..], b[1..], key);
      assert a == [a[0]] + a[1..];
      assert b == [b[0]] + b[1..];
    }
  }

  lemma SortedTail<T>(s: seq<T>, key: T -> real)
    requires SortedBy(s, key) && |s| > 0
    ensures SortedBy(s[1..], key)
  {
  }

  /** Two sorted sequences with the same key runs start with the same
      element: both start the run of the smallest key. */
  lemma MinKeyRunHead<T>(a: seq<T>, b: seq<T>, key: T -> real)
    requires SortedBy(a, key) && SortedBy(b, key)
    requires |a| > 0 && |b| > 0
    requires forall k :: WithKey(a, key, k) == WithKey(b, key, k)
    ensures a[0] == b[0]
  {
    WithKeyOfHead(a, key);
    WithKeyOfHead(b, key);
    WithKeyBelowHead(a, key, key(b[0]));
    WithKeyBelowHead(b, key, key(a[0]));
    assert WithKey(a, key, key(a[0])) == WithKey(b, key, key(a[0]));
    assert WithKey(a, key, key(b[0])) == WithKey(b, key, key(b[0]));
    assert key(a[0]) == key(b[0]);
  }

  lemma WithKeyOfHead<T>(s: seq<T>, key: T -> real)
    ensures |s| > 0 ==> WithKey(s, key, key(s[0])) == [s[0]] + WithKey(s[1..], key, key(s[0]))
  {
  }

  /** No element of a sorted sequence has a key below its first element's. */
  lemma {:induction false} WithKeyBelowHead<T>(s: seq<T>, key: T -> real, k: real)
    requires SortedBy(s, key) && |s| > 0
    ensures k < key(s[0]) ==> WithKey(s, key, k) == []
    decreases |s|
  {
    if |s| > 1 {
      SortedTail(s, key);
      WithKeyBelowHead(s[1..], key, k);
    }
  }
}
